=== FILE: README.md ===
# sj_coins core, modelled in Dafny

This project models the core of the sj_coins coin server. The server keeps internal accounts, identified by `ldapId`, and lends each one a blockchain account from a provisioned pool. Every coin movement is issued as a call to a token contract on the chain. The model covers six pieces:

- **Ledger transfer engine** (`CoinService`, modules `Chain` and `Coins`): fill, move, buy, move to treasury, distribute, withdraw to a cheque, deposit a cheque, and live balance queries. Each operation checks the amount, resolves the accounts' bindings, checks the live balance where the source does, issues the contract calls, and reads the responses. The exceptions these steps raise are modelled with their messages; the exceptions listed under "## Left out" are not.
- **Pool reconciliation** (`ErisAccountsService`, modules `Pool` and `Reconcile`): parsing and classifying the provisioning file, both passes of `shareAccounts`, `init`, and `bindFreeAccount`.
- **Account creation and binding** (`AccountsService`, module `Accounts`): find-or-create, the directory check, taking the first free pool entry, and merchants.
- **Audit records** (`TransactionSavingAspect`, module `Audit`): how the record is built from the operation's outcome and arguments, and which records are saved on each path.
- **Batch fills** (`FillAccountsService`, module `Batch`): the treasury check, task planning, and progress reports.
- **`Account` entity** (module `Entities`): name splitting, and equality and hashing by `ldapId`.

Everything is a pure function over immutable values.

- **Stores.** The account store and the pool repository are sequences, and `save` is an upsert. The user directory is a map; a missing key stands for a lookup that gives `null`.
- **The chain.** The chain is an oracle from contract calls to replies. Every operation returns the calls it issued, in order. This is how contracts say which transfers happen, and when.
- **Exceptions.** Exceptions are a datatype (`Errors.Exc`) carried in a `Result`.
- **Outside inputs.** The clock, the fresh batch id, the uploaded rows and the decoded cheque hash are parameters.

Two messages are modelled exactly as the source writes them:

- `getErisAccount` reports "Eris account for user " + id + "is not set.", with no space before "is".
- `deposit` wraps its failures with "Can't withdraw money.".

## Model

| member | source | states |
|---|---|---|
| Strings.SplitAllHead | src/main/java/com/softjourn/coin/server/entity/Account.java:41-53 | Splitting on `\s` gives, as its first piece, the text before the first whitespace character and, when there is one, as its second piece the text between the first and second whitespace characters. |
| Strings.DropTrailingEmpty | src/main/java/com/softjourn/coin/server/entity/Account.java:43 | Like `String.split`, it drops only empty pieces at the end: the result is a prefix of the pieces, every piece dropped is empty, and the last piece kept is not empty. |
| Strings.HasInfixIsOccurrence | src/main/java/com/softjourn/coin/server/service/ErisAccountsService.java:72-77 | The containment test behind `matches(".*X.*")` holds exactly when X occurs at some index of the key. |
| Strings.LexLeReflexive | src/main/java/com/softjourn/coin/server/service/ErisAccountsService.java:65 | The `String` order of a `TreeMap` is reflexive. |
| Strings.LexLeTotal | src/main/java/com/softjourn/coin/server/service/ErisAccountsService.java:65 | Any two keys are comparable. |
| Strings.LexLeAntisymmetric | src/main/java/com/softjourn/coin/server/service/ErisAccountsService.java:65 | Two keys ordered both ways are equal. |
| Strings.LexLeTransitive | src/main/java/com/softjourn/coin/server/service/ErisAccountsService.java:65 | The order is transitive, so `pollFirstEntry` and `values()` are well defined. |
| Strings.JavaHash | src/main/java/com/softjourn/coin/server/entity/Account.java:68 | `String.hashCode` wraps like a Java `int`: the result always lies in [-2^31, 2^31). |
| Strings.JavaHashStep | src/main/java/com/softjourn/coin/server/entity/Account.java:68 | Appending a character multiplies the previous hash by 31, adds the character code, and wraps to 32 bits, as Java's `String.hashCode` recurrence does. |
| Strings.JavaHashExamples | src/main/java/com/softjourn/coin/server/entity/Account.java:68 | Known Java values: `""` hashes to 0, `"ab"` to 3105, and `"polygenelubricants"` wraps around to -2^31. |
| Entities.NewAccount | src/main/java/com/softjourn/coin/server/entity/Account.java:36-39 | `new Account(ldapId, amount)` sets only the id and the amount; every other field is null. |
| Entities.Name | src/main/java/com/softjourn/coin/server/entity/Account.java:41-46 | A null full name gives "". Otherwise the result is the text before the first whitespace character, so it never contains whitespace; a leading space gives "". |
| Entities.Surname | src/main/java/com/softjourn/coin/server/entity/Account.java:48-53 | A null full name gives "". Otherwise the result is the text between the first and second whitespace characters, and it contains no whitespace. |
| Entities.EqualsIgnoresState | src/main/java/com/softjourn/coin/server/entity/Account.java:55-64 | Two accounts with the same `ldapId` are equal whatever their amount, name, image, type and binding. |
| Entities.EqualsIsEquivalence | src/main/java/com/softjourn/coin/server/entity/Account.java:55-69 | `equals` is reflexive, symmetric and transitive, and equal accounts have equal `hashCode`. |
| Entities.LeadingSpaceExample | src/main/java/com/softjourn/coin/server/entity/Account.java:41-53 | " John" has the name "" and the surname "John". |
| Entities.TrailingSpaceExample | src/main/java/com/softjourn/coin/server/entity/Account.java:48-53 | "John " has an empty surname, and so does "John  Smith", which has two spaces. |
| Pool.Classify | src/main/java/com/softjourn/coin/server/service/ErisAccountsService.java:71-77 | A root key makes the entry ROOT. Otherwise a participant key makes it PARTICIPANT. Otherwise the entry keeps its own type. Nothing but the type changes. |
| Pool.RootWins | src/main/java/com/softjourn/coin/server/service/ErisAccountsService.java:72-77 | A key that matches both patterns gives ROOT. |
| Pool.Mapping | src/main/java/com/softjourn/coin/server/service/ErisAccountsService.java:64-83 | The parsed map is keyed by address, and its key set is exactly the set of addresses in the file. |
| Pool.MappingLastWins | src/main/java/com/softjourn/coin/server/service/ErisAccountsService.java:71-80 | An entry whose address is not repeated later in the file is in the map, classified by its own key. A later entry with the same address replaces it. |
| Pool.MinKey | src/main/java/com/softjourn/coin/server/service/ErisAccountsService.java:112 | `pollFirstEntry` takes the least key of a non-empty map. |
| Pool.SortedKeys | src/main/java/com/softjourn/coin/server/service/ErisAccountsService.java:61 | The keys come in iteration order: each key exactly once, strictly ascending. |
| Pool.SortedValues | src/main/java/com/softjourn/coin/server/service/ErisAccountsService.java:61 | `values()` gives every descriptor of the map exactly once, in strictly ascending address order. |
| Pool.SaveEntry | src/main/java/com/softjourn/coin/server/service/ErisAccountsService.java:60-61 | Saving keeps the saved entry and every entry at another address, and adds nothing else. |
| Pool.SaveEntryDistinct | src/main/java/com/softjourn/coin/server/service/AccountsService.java:104 | Saving into a pool with distinct addresses keeps them distinct. The saved entry is then the only one at its address. |
| Pool.DeleteEntry | src/main/java/com/softjourn/coin/server/service/ErisAccountsService.java:95 | Deleting removes exactly the entries at the deleted record's address. |
| Pool.DeleteAllFacts | src/main/java/com/softjourn/coin/server/service/ErisAccountsService.java:95 | After a run of deletes, an entry remains exactly when it was there and no deleted record has its address. |
| Pool.SaveAllFrom | src/main/java/com/softjourn/coin/server/service/ErisAccountsService.java:60-61 | A run of saves leaves only entries that were saved or were already there. |
| Pool.SaveAllKeeps | src/main/java/com/softjourn/coin/server/service/ErisAccountsService.java:60-61 | An entry survives a run of saves when no saved entry has its address. |
| Pool.SaveAllHolds | src/main/java/com/softjourn/coin/server/service/ErisAccountsService.java:60-61 | After saving entries with distinct addresses, every one of them is in the repository. |
| Pool.FreeEntries | src/main/java/com/softjourn/coin/server/service/ErisAccountsService.java:123 | An entry is free exactly when it is in the pool and held by no account. |
| Pool.FreeEntriesHead | src/main/java/com/softjourn/coin/server/service/ErisAccountsService.java:121-126 | There are no free entries exactly when every entry is held. Otherwise the first free entry is the first entry in pool order held by no account. |
| Pool.BindFreeAccount | src/main/java/com/softjourn/coin/server/service/ErisAccountsService.java:121-126 | It gives null exactly when every entry is held. Otherwise it gives the first unheld entry in pool order, and the pool is unchanged. |
| Reconcile.DrawKeepsPartition | src/main/java/com/softjourn/coin/server/service/ErisAccountsService.java:112-114 | Taking an entry out of the working map and handing it to an account keeps the remaining and assigned entries disjoint parts of the parsed map. |
| Reconcile.FirstPassFacts | src/main/java/com/softjourn/coin/server/service/ErisAccountsService.java:90-108 | After the first pass, the working map is the parsed map minus every address some account was bound to. Every account keeps its place, and the re-bound descriptors are parsed ones with distinct addresses, none left in the working map. |
| Reconcile.SecondPassOutcome | src/main/java/com/softjourn/coin/server/service/ErisAccountsService.java:109-115 | The second pass fails with a null dereference exactly when there are more unbound accounts than remaining entries. |
| Reconcile.SecondPassShape | src/main/java/com/softjourn/coin/server/service/ErisAccountsService.java:109-115 | The second pass appends one entry per unbound account, in account order, each owned by that account and taken from the working map. |
| Reconcile.SecondPassLeast | src/main/java/com/softjourn/coin/server/service/ErisAccountsService.java:109-115 | Each entry the second pass hands out is below every entry left over, and the entries it hands out are in ascending order. |
| Reconcile.StaleBindingDropped | src/main/java/com/softjourn/coin/server/service/ErisAccountsService.java:93-97 | A binding whose address the file no longer lists is cleared, and its record is deleted. |
| Reconcile.UnchangedBindingKept | src/main/java/com/softjourn/coin/server/service/ErisAccountsService.java:99-100 | An unchanged binding is kept. Its address leaves the working map and is not handed to anyone. |
| Reconcile.ChangedBindingRebound | src/main/java/com/softjourn/coin/server/service/ErisAccountsService.java:101-105 | A changed binding is re-bound. The refreshed descriptor, owned by the same account, joins the newly assigned list. |
| Reconcile.ShareAccounts | src/main/java/com/softjourn/coin/server/service/ErisAccountsService.java:85-119 | It fails exactly when too few entries remain for the unbound accounts. Otherwise every account keeps its place, no entry is handed out twice, and each unbound account receives the least remaining address, in account order. |
| Reconcile.SavedOrder | src/main/java/com/softjourn/coin/server/service/ErisAccountsService.java:59-61 | The two saves write parsed descriptors with distinct addresses: first the newly assigned ones, then the free ones unchanged, in ascending order. |
| Reconcile.Init | src/main/java/com/softjourn/coin/server/service/ErisAccountsService.java:55-62 | Start-up fails exactly when `shareAccounts` fails, and then only with a null dereference. Otherwise it keeps the reconciled accounts and writes the newly assigned list followed by the remaining map's values in address order: parsed descriptors, no address twice, the held ones first and the free ones unchanged. Every written record is in the repository afterwards. Every other record left there was there before and is not at a deleted address, and every such record not overwritten is kept. |
| Reconcile.InitDropsStale | src/main/java/com/softjourn/coin/server/service/ErisAccountsService.java:90-97 | After start-up, an account whose address the provisioning file no longer lists is unbound, and no record at that address remains in the repository. |
| Accounts.Find | src/main/java/com/softjourn/coin/server/service/AccountsService.java:77 | `findOne` gives null exactly when no stored account has the id. Otherwise it gives a stored account with that id. |
| Accounts.FindAfterSave | src/main/java/com/softjourn/coin/server/service/AccountsService.java:101 | A saved account is found under its id, and every other id finds what it found before. |
| Accounts.AccountsOfType | src/main/java/com/softjourn/coin/server/service/AccountsService.java:71-73 | `getAll(type)` lists exactly the stored accounts of that type. |
| Accounts.AccountsOfTypeAppend | src/main/java/com/softjourn/coin/server/service/AccountsService.java:71-73 | Listing by type distributes over concatenation of the store, so it is an order-preserving filter that keeps repeated entries. |
| Accounts.AccountsOfTypeSingle | src/main/java/com/softjourn/coin/server/service/AccountsService.java:71-73 | A one-account store lists that account exactly when it has the requested type, and lists nothing otherwise. |
| Accounts.CreateAccount | src/main/java/com/softjourn/coin/server/service/AccountsService.java:92-109 | An unknown user or an exhausted pool fails and changes nothing. Success means the user is known and some entry is free; the account then gets the defaults and the directory's name, is linked both ways to the first free entry, and is found under its id afterwards. |
| Accounts.GetAccount | src/main/java/com/softjourn/coin/server/service/AccountsService.java:75-85 | A stored account is returned unchanged; otherwise the account is created. Success always returns the account now stored under the id. |
| Accounts.AddMerchant | src/main/java/com/softjourn/coin/server/service/AccountsService.java:112-122 | It fails exactly when the pool is exhausted, and then changes nothing. Otherwise the merchant is named after its id and has a zero balance. The stored merchant is linked to the first free entry, and that entry is owned by it and stays in the pool. The returned merchant is the object saved before the link, so it carries no binding. The directory is unchanged. |
| Accounts.GetAccountOthersUnchanged | src/main/java/com/softjourn/coin/server/service/AccountsService.java:75-79 | Looking up or creating one account leaves every other id's account as it was. |
| Accounts.GetAccountIdempotent | src/main/java/com/softjourn/coin/server/service/AccountsService.java:75-79 | A second lookup of the same id finds the same account and changes nothing. |
| Accounts.CreatedEntryTaken | src/main/java/com/softjourn/coin/server/service/AccountsService.java:99-105 | With distinct pool addresses, the entry a new account took is owned by it afterwards and cannot be handed out again. |
| Accounts.CreatedAccountsDistinct | src/main/java/com/softjourn/coin/server/service/AccountsService.java:92-109 | Two accounts created one after the other never share a blockchain account. |
| Chain.Trunc | src/main/java/com/softjourn/coin/server/service/CoinService.java:278 | `toBigInteger` truncates toward zero: the result is within one of the amount, on the side of zero. |
| Chain.TruncSymmetric | src/main/java/com/softjourn/coin/server/service/CoinService.java:278 | Truncation is odd and leaves whole amounts unchanged. |
| Chain.Checked | src/main/java/com/softjourn/coin/server/service/CoinService.java:324-326 | A null response is dereferenced, an error field becomes `ErisProcessingException` with its message, and an exception of the client passes through. Success means an answer without an error. |
| Chain.FirstValue | src/main/java/com/softjourn/coin/server/service/CoinService.java:280-282 | An empty value list fails with an index error, and a null list or null element gives no value. Otherwise it gives the first value. |
| Chain.SuccessFlag | src/main/java/com/softjourn/coin/server/service/CoinService.java:279-285 | It succeeds exactly when the first return value is `true`. `false`, `null` or no values give `NotEnoughAmountInAccountException`, another type gives a cast error, and a failed response passes its error through. |
| Chain.IntResult | src/main/java/com/softjourn/coin/server/service/CoinService.java:160-166 | It succeeds exactly when the first return value is an integer, and gives that integer. A null value gives "Wrong server response.". |
| Chain.MoveByEris | src/main/java/com/softjourn/coin/server/service/CoinService.java:274-289 | It succeeds exactly when the chain answers the transfer with `true`. Every failure is wrapped with the destination address; a `false` answer keeps `NotEnoughAmountInAccountException` as the cause. |
| Chain.BalanceOf | src/main/java/com/softjourn/coin/server/service/CoinService.java:157-170 | It succeeds exactly when the chain returns an integer balance, and gives that balance. Failures are wrapped with the address. |
| Chain.MapToTransaction | src/main/java/com/softjourn/coin/server/service/CoinService.java:291-297 | The record is empty except for the transaction id, which is present exactly when the response carries one. |
| Coins.GetMonitor | src/main/java/com/softjourn/coin/server/service/CoinService.java:338-346 | The id is recorded if absent and its monitor returned. No other entry changes, and a new id is its own monitor. |
| Coins.GetMonitorFacts | src/main/java/com/softjourn/coin/server/service/CoinService.java:338-346 | The monitor map only ever maps an id to itself, and a second call with the same id changes nothing. |
| Coins.CheckAmountIsPositive | src/main/java/com/softjourn/coin/server/service/CoinService.java:332-336 | Only negative amounts are refused (zero passes), with "Amount can't be negative". |
| Coins.GetErisAccount | src/main/java/com/softjourn/coin/server/service/CoinService.java:315-322 | It succeeds exactly when the found-or-created account is bound, and gives that binding. A stored unbound account is reported as not set. It issues no chain calls, and no other account changes. |
| Coins.GetAmount | src/main/java/com/softjourn/coin/server/service/CoinService.java:148-155 | The balance comes from the chain, never from the cache: one balance query for the bound address, and success exactly when the chain gives an integer. Every failure is wrapped with the id. |
| Coins.CheckEnoughAmount | src/main/java/com/softjourn/coin/server/service/CoinService.java:264-272 | A negative amount is refused before any call. The check passes exactly when the live balance covers the amount, and a short balance gives `NotEnoughAmountInAccountException`. Only balance queries are issued. |
| Coins.ResolveBoth | src/main/java/com/softjourn/coin/server/service/CoinService.java:135-136 | Resolving both accounts succeeds exactly when both end up bound, and gives both bindings. No account other than the two changes, and when both are already stored nothing changes at all. |
| Coins.Transfer | src/main/java/com/softjourn/coin/server/service/CoinService.java:142-144 | The transfer succeeds exactly when the chain answers `true`. The record then carries the response's transaction id. |
| Coins.FillAccount | src/main/java/com/softjourn/coin/server/service/CoinService.java:85-98 | A transfer is issued exactly when the amount is non-negative and the destination is bound. It is then the only call, from the treasury to the destination's address. The call succeeds exactly when the chain answers `true`, and returns that reply's transaction. A failed transfer gives the error `moveByEris` raises, and a refusal before the transfer gives the lookup's own error. The registry afterwards is the one the destination lookup leaves. The destination's monitor is recorded. |
| Coins.Move | src/main/java/com/softjourn/coin/server/service/CoinService.java:129-145 | Only resolving the two accounts can change the registry. A transfer is issued exactly when the amount is non-negative, the destination is bound, and the live balance covers the amount. It comes right after the one balance query. A short balance gives `NotEnoughAmountInAccountException`. The call succeeds exactly when the transfer is issued and the chain answers `true`, and the result then carries that reply's transaction. A failed resolution or balance check gives that step's own error, and a failed transfer gives the error `moveByEris` raises, wrapped with the destination address. |
| Coins.Buy | src/main/java/com/softjourn/coin/server/service/CoinService.java:188-200 | It issues the same transfer as `move`, under the buyer's monitor. No account other than the buyer and the seller changes, and with both stored the registry is unchanged. It succeeds exactly when that transfer is issued and the chain answers `true`, returning that reply's transaction. A refused purchase issues no transfer and leaves every other account as it was. A failed balance check or seller lookup gives that step's own error, and a failed transfer gives the error `moveByEris` raises. |
| Coins.BuyMatchesMove | src/main/java/com/softjourn/coin/server/service/CoinService.java:188-200 | With both accounts stored and bound, `buy` and `move` issue the same calls, reach the same outcome, and leave the registry unchanged. |
| Coins.CreatedResolves | src/main/java/com/softjourn/coin/server/service/AccountsService.java:92-109 | After a successful `createAccount`, `getErisAccount` for the new id yields the entry the account was linked to, and touches nothing. |
| Coins.MerchantResolves | src/main/java/com/softjourn/coin/server/service/AccountsService.java:112-122 | After a successful `addMerchant`, `getErisAccount` for the merchant yields the taken entry, now owned by the merchant, and touches nothing. |
| Coins.MoveToTreasury | src/main/java/com/softjourn/coin/server/service/CoinService.java:301-313 | Only the account's own lookup can change the state. A transfer to the treasury is issued exactly when the amount is non-negative and the live balance covers it. A short balance gives `NotEnoughAmountInAccountException`. It succeeds exactly when the transfer is issued and the chain answers `true`, returning that reply's transaction. A refusal before the transfer gives the balance check's own error, and a failed transfer gives the error `moveByEris` raises. |
| Coins.FillAccountStored | src/main/java/com/softjourn/coin/server/service/CoinService.java:85-98 | For a stored destination the registry is unchanged, and a transfer is issued exactly when the amount is non-negative and the destination is bound in the input registry. An unbound destination is reported as "is not set.". |
| Coins.MoveStored | src/main/java/com/softjourn/coin/server/service/CoinService.java:129-145 | For two stored accounts nothing changes, and a transfer is issued exactly when the amount is non-negative, the destination is bound and the chain's balance at the input binding covers the amount. A short balance is refused. |
| Coins.BuyStored | src/main/java/com/softjourn/coin/server/service/CoinService.java:188-200 | For a stored buyer and seller the registry is unchanged, and a transfer is issued exactly when the amount is non-negative, the seller is bound and the buyer's balance at the input binding covers the amount. A short balance is refused. |
| Coins.MoveToTreasuryStored | src/main/java/com/softjourn/coin/server/service/CoinService.java:301-313 | For a stored account nothing changes, and a transfer is issued exactly when the amount is non-negative and the balance at the input binding covers it. A short balance is refused. |
| Coins.Addresses | src/main/java/com/softjourn/coin/server/service/CoinService.java:104-107 | The addresses are listed in account order. The listing is null exactly when some account is unbound. |
| Coins.Distribute | src/main/java/com/softjourn/coin/server/service/CoinService.java:102-125 | There is one call crediting every regular account in store order, or none if one is unbound. It succeeds exactly when the chain answers `true`; every failure is wrapped with "Can't distribute money.". State is unchanged. |
| Coins.IssueCheque | src/main/java/com/softjourn/coin/server/service/CoinService.java:209-227 | The approval is always issued. The withdrawal follows exactly when the approval has no error. A cheque results exactly when the withdrawal returns bytes, and it carries the truncated amount. |
| Coins.Withdraw | src/main/java/com/softjourn/coin/server/service/CoinService.java:203-233 | Only the account's own lookup can change the state. Mutating calls are issued exactly when the amount is non-negative and the live balance covers it. They come after the balance query: the approval, then the withdrawal if the approval has no error. Every failure is wrapped with "Can't withdraw money.". |
| Coins.WithdrawStored | src/main/java/com/softjourn/coin/server/service/CoinService.java:203-233 | For a stored account nothing changes, and mutating calls are issued exactly when the amount is non-negative and the balance at the input binding covers it. A short balance fails as "Can't withdraw money." caused by `NotEnoughAmountInAccountException`. |
| Coins.DepositCheque | src/main/java/com/softjourn/coin/server/service/CoinService.java:236-252 | The vault call is issued exactly when the account is bound and the hash decodes. It succeeds exactly when the response has no error. Failures are wrapped with the message the source uses. |
| Coins.GetTreasuryAmount | src/main/java/com/softjourn/coin/server/service/CoinService.java:172-174 | It issues one balance query for the treasury and succeeds exactly when that query gives an integer. Failures are wrapped once with the treasury address. |
| Coins.LiveSumOk | src/main/java/com/softjourn/coin/server/service/CoinService.java:176-184 | The type's sum is defined exactly when every bound account's balance can be read. |
| Coins.LiveSumErrExtends | src/main/java/com/softjourn/coin/server/service/CoinService.java:176-184 | Once a prefix of the listing fails, the whole listing fails with the same error. |
| Coins.SumLive | src/main/java/com/softjourn/coin/server/service/CoinService.java:178-182 | The loop computes the reference sum, refreshes each summed account's cached amount, changes nothing else, and issues only balance queries. |
| Coins.GetAmountByAccountType | src/main/java/com/softjourn/coin/server/service/CoinService.java:176-184 | A null listing gives 0. Otherwise the result is the sum of the live balances of the bound accounts, with unbound ones skipped and the first failure propagated. On success every cached amount is refreshed and the amounts add up to the total. Nothing but amounts changes. |
| Audit.Named | src/main/java/com/softjourn/coin/server/aop/aspects/TransactionSavingAspect.java:111-125 | The lookup finds nothing exactly when no parameter name matches, ignoring case. Otherwise it gives the argument of the first match. |
| Audit.StringArg | src/main/java/com/softjourn/coin/server/aop/aspects/TransactionSavingAspect.java:111-125 | A string is found exactly when the first matching parameter holds a string. A first match of another type gives null; later matches are ignored. |
| Audit.DecimalArg | src/main/java/com/softjourn/coin/server/aop/aspects/TransactionSavingAspect.java:111-125 | A decimal is found exactly when the first matching parameter holds a decimal, and the result is that value. |
| Audit.ResolveAccount | src/main/java/com/softjourn/coin/server/aop/aspects/TransactionSavingAspect.java:92-108 | A non-empty annotation attribute names the account; otherwise the string argument does. A missing name gives null; a present one gives the stored account. |
| Audit.ReplaceIfNull | src/main/java/com/softjourn/coin/server/aop/aspects/TransactionSavingAspect.java:75-79 | A field that is already set keeps its value. |
| Audit.FillTransaction | src/main/java/com/softjourn/coin/server/aop/aspects/TransactionSavingAspect.java:66-73 | Account, destination, amount and comment are filled only where null. The creation time is always set, and nothing else changes. |
| Audit.FillTwice | src/main/java/com/softjourn/coin/server/aop/aspects/TransactionSavingAspect.java:66-79 | Filling twice is filling once, with the later time. |
| Audit.SetRemain | src/main/java/com/softjourn/coin/server/aop/aspects/TransactionSavingAspect.java:81-90 | The remainder is the live balance of the record's account, or failing that of the `accountName` argument. It stays unset when there is neither, and a failing balance query fails the step. |
| Audit.SaveTransaction | src/main/java/com/softjourn/coin/server/aop/aspects/TransactionSavingAspect.java:39-90 | Every path saves a record, and only a successful `Transaction` result is saved twice. On every path the saved record keeps any account, destination, amount and comment already set, and fills the missing ones from the annotated arguments. A normal return is marked SUCCESS, and its remainder is the live balance of the named account. A thrown failure is rethrown and marked FAILED with its message. When the remainder query fails, that query's own error is rethrown and recorded. The time is set. |
| Batch.TotalAppend | src/main/java/com/softjourn/coin/server/service/FillAccountsService.java:49-50 | The batch total of two parts is the sum of their totals. |
| Batch.Plan | src/main/java/com/softjourn/coin/server/service/FillAccountsService.java:53-55 | One pending task per row, in row order, for that row's account and coins. |
| Batch.FillAccounts | src/main/java/com/softjourn/coin/server/service/FillAccountsService.java:42-64 | An unreadable file and a failing treasury query are reported. The batch is accepted exactly when its total is strictly below the treasury balance; it is then registered under the fresh id. Otherwise the jobs are unchanged. |
| Batch.ExactTotalRefused | src/main/java/com/softjourn/coin/server/service/FillAccountsService.java:95-98 | A batch whose total equals the treasury balance is refused. |
| Batch.PrefixAccepted | src/main/java/com/softjourn/coin/server/service/FillAccountsService.java:49-51 | Dropping trailing rows with non-negative coins keeps an accepted batch accepted. |
| Batch.NonNegativeTotal | src/main/java/com/softjourn/coin/server/service/FillAccountsService.java:49-50 | Rows with no negative coins have a non-negative total. |
| Batch.CountDone | src/main/java/com/softjourn/coin/server/service/FillAccountsService.java:67 | The count equals the number of positions holding a finished task, and never exceeds the number of tasks. |
| Batch.CountDoneAll | src/main/java/com/softjourn/coin/server/service/FillAccountsService.java:67-72 | All tasks are counted as finished exactly when every task is finished. |
| Batch.Settled | src/main/java/com/softjourn/coin/server/service/FillAccountsService.java:73-83 | A finished task yields its transaction. A task that threw yields a FAILED record whose comment is the exception's message. |
| Batch.CheckProcessing | src/main/java/com/softjourn/coin/server/service/FillAccountsService.java:66-88 | An unknown id dereferences null. Otherwise it reports the finished count out of the total. Records are present exactly when every task is finished, then one per task in task order. |

## Left out

- Concurrency is not modelled. This covers the `synchronized` methods, the monitor objects and the executor that runs batch tasks. The monitor map is kept and updated, and each task's state is an input to `checkProcessing`.
- I/O is not modelled: the JSON provisioning file, the CSV upload and its MIME check, the REST directory lookup, and JPA persistence. The parsed entries, the uploaded rows, the directory map and the stores are inputs.
- The chain client is not modelled: contract lookup, ABI encoding and transport. Replies come from an oracle, and client exceptions are a `Raised` reply.
- `Instant.now()` and `UUID.randomUUID()` are not modelled. They are the `now` and `freshId` parameters.
- Batch.Total: sums the coins exactly. The source converts each amount to `double` and sums in floating point before comparing.
- `withdraw` does not model the cheque's encoding. The hex string, the JSON of `CashDTO` and the QR image are left out, along with the `image` flag that chooses between them. The result is the cheque's content: token address, vault address, cheque bytes and amount.
- `deposit` does not model hex decoding. The decoded hash is an input, and `None` stands for a `DecoderException`.
- The comment `planJob` formats with `%.0f` is left out. Audit never reads it.
- Strings.EqualsIgnoreCase: folds case for ASCII letters only. Java also folds other Unicode letters.
- Strings.LexLe: compares Dafny characters. Java compares UTF-16 code units, which differs only outside the Basic Multilingual Plane.
- Errors.Message: the JVM's own messages for null-pointer, index and cast exceptions are taken to be `null`, and so is the message of a commons-codec `DecoderException`, which deposit always wraps. The exception classes' sources are not part of this model, so every other message is taken to be the constructor argument.
- Entities.SameDescriptor: `ErisAccount.equals` is not part of this model. It is read as equality of address, keys and type, ignoring the owning account.
- Pool.FreeEntries: the repository query `getFree` is not part of this model. It is read as the entries held by no account, in repository order. The contract states only which entries are free; `FreeEntriesHead` states which comes first, and the rest of the order is not stated.
- Reconcile.Init: on failure the model returns no repository. The source has by then already applied the deletes of the first pass (ErisAccountsService.java:95), and they stay.
- Coins.IssueCheque: the JSON conversion failure of `withdrawResultMapping` (`RuntimeException("Can't convert CashDTO object to JSON.")`, CoinService.java:259-260) and a QR-code generation failure (line 226) are not produced. Both are library failures outside this model.
- Chain.Checked: an error object whose `getMessage()` is null (CoinService.java:325) is not represented; the response's error is a present or absent string.
- Null arguments are not represented. Lombok `@NonNull` parameters throw `NullPointerException` on null (CoinService.java:85-86, 129-131, 188, 203), and the model's arguments are never null.
- Null values in input files are not represented. A null `address` in the provisioning file makes `TreeMap.put` throw (ErisAccountsService.java:78). A null `coins` in an uploaded row makes the sum throw (FillAccountsService.java:50).
- Entities.AccountEquals: the id is taken to be non-null. Java's `equals` and `hashCode` throw `NullPointerException` on a null `ldapId`.
- Entities.HashCode: the id is taken to be non-null, as for `AccountEquals`.
- Accounts.CreateAccount: the account is saved before it is linked, but JPA flushes the managed entity at commit. The model therefore stores the linked account.
- `getAll()` without a type, `update`, `getAccountIfExistInLdapBase` and `ErisAccountsService.getAll` are not modelled. Each is a direct repository or REST call with no logic of its own.
- `GenericFilter`, the controllers, the DTOs and the test configuration are outside the core.

=== FILE: accounts.dfy ===
/** Account lookup and creation (`AccountsService`): find-or-create, the
    directory check, drawing a blockchain account from the pool, and
    merchants. */
module Accounts {
  import opened Wrappers
  import opened Errors
  import opened Entities
  import opened Pool

  /** The image every new user account starts with. */
  const DefaultImageName: string := "images/default.png"

  /** The state the service reads and writes: the account store (keyed by
      `ldapId`), the pool repository, and the user directory, where a
      missing key stands for a lookup that gives `null`. */
  datatype Registry = Registry(
    accounts: seq<Account>,
    pool: seq<ErisAccount>,
    directory: map<string, Account>)

  /** The outcome of an operation and the registry after it. */
  datatype Effect<T> = Effect(result: Result<T, Exc>, reg: Registry)

  // ---------------------------------------------------------------------
  // The account store
  // ---------------------------------------------------------------------

  /** `accountRepository.findOne(ldapId)`. */
  function Find(accounts: seq<Account>, ldapId: string): (r: Option<Account>)
    ensures r.None? <==> forall i :: 0 <= i < |accounts| ==> accounts[i].ldapId != ldapId
    ensures r.Some? ==> r.value.ldapId == ldapId && r.value in accounts
  {
    if accounts == [] then None
    else if accounts[0].ldapId == ldapId then Some(accounts[0])
    else Find(accounts[1..], ldapId)
  }

  /** `accountRepository.save(a)`: replaces the account with the same
      `ldapId`, or appends. */
  function Save(accounts: seq<Account>, a: Account): seq<Account> {
    if accounts == [] then [a]
    else if accounts[0].ldapId == a.ldapId then [a] + accounts[1..]
    else [accounts[0]] + Save(accounts[1..], a)
  }

  /** A saved account is found under its id, and every other id finds what
      it found before. */
  lemma {:induction false} FindAfterSave(accounts: seq<Account>, a: Account, id: string)
    ensures Find(Save(accounts, a), a.ldapId) == Some(a)
    ensures id != a.ldapId ==> Find(Save(accounts, a), id) == Find(accounts, id)
  {
    if accounts != [] && accounts[0].ldapId != a.ldapId {
      FindAfterSave(accounts[1..], a, id);
      assert Save(accounts, a)[1..] == Save(accounts[1..], a);
    } else if accounts != [] {
      assert Save(accounts, a)[1..] == accounts[1..];
    }
  }

  /** `getAll(accountType)`: the stored accounts of that type, in store
      order. */
  function AccountsOfType(accounts: seq<Account>, kind: AccountType): (r: seq<Account>)
    ensures forall a :: a in r <==> a in accounts && a.accountType == Some(kind)
  {
    if accounts == [] then []
    else if accounts[0].accountType == Some(kind) then [accounts[0]] + AccountsOfType(accounts[1..], kind)
    else AccountsOfType(accounts[1..], kind)
  }

  /** Listing by type is a filter: it distributes over concatenation, so the
      accounts of the type keep their store order and multiplicity. */
  lemma {:induction false} AccountsOfTypeAppend(a: seq<Account>, b: seq<Account>, kind: AccountType)
    ensures AccountsOfType(a + b, kind) == AccountsOfType(a, kind) + AccountsOfType(b, kind)
    decreases |a|
  {
    if a != [] {
      assert (a + b)[0] == a[0];
      assert (a + b)[1..] == a[1..] + b;
      AccountsOfTypeAppend(a[1..], b, kind);
    } else {
      assert a + b == b;
    }
  }

  /** A single account is listed exactly when it has the type. */
  lemma AccountsOfTypeSingle(a: Account, kind: AccountType)
    ensures AccountsOfType([a], kind) == if a.accountType == Some(kind) then [a] else []
  {
  }

  // ---------------------------------------------------------------------
  // createAccount, getAccount / add, addMerchant
  // ---------------------------------------------------------------------

  /** The fields `createAccount` sets on the directory's record before
      binding it. */
  function NewUser(profile: Account, ldapId: string): Account {
    profile.(ldapId := ldapId, amount := Some(0.0), image := Some(DefaultImageName), accountType := Some(Regular))
  }

  /** `createAccount(ldapId)`: the directory's record, given its defaults and
      the first free pool entry, linked in both directions; both saved. An
      unknown user, or an exhausted pool, changes nothing. */
  function CreateAccount(reg: Registry, ldapId: string): (r: Effect<Account>)
    ensures ldapId !in reg.directory ==> r == Effect(Err(AccountNotFound(ldapId)), reg)
    ensures ldapId in reg.directory && BindFreeAccount(reg.pool).None? ==>
      r == Effect(Err(ErisAccountNotFound(ldapId)), reg)
    ensures r.result.Ok? <==> ldapId in reg.directory && exists e :: e in reg.pool && e.owner.None?
    ensures r.result.Ok? ==>
      var a := r.result.value;
      && a.ldapId == ldapId && a.amount == Some(0.0) && a.image == Some(DefaultImageName)
      && a.accountType == Some(Regular)
      && a.fullName == reg.directory[ldapId].fullName
      && a.erisAccount.Some? && a.erisAccount.value.owner == Some(ldapId)
      && BindFreeAccount(reg.pool).Some?
      && a.erisAccount.value == BindFreeAccount(reg.pool).value.(owner := Some(ldapId))
      && a.erisAccount.value in r.reg.pool
      && Find(r.reg.accounts, ldapId) == Some(a)
      && r.reg.directory == reg.directory
  {
    if ldapId !in reg.directory then Effect(Err(AccountNotFound(ldapId)), reg)
    else
      var a := NewUser(reg.directory[ldapId], ldapId);
      match BindFreeAccount(reg.pool)
      case None => Effect(Err(ErisAccountNotFound(ldapId)), reg)
      case Some(e) =>
        var bound := e.(owner := Some(ldapId));
        var linked := a.(erisAccount := Some(bound));
        FindAfterSave(reg.accounts, linked, ldapId);
        Effect(Ok(linked), reg.(accounts := Save(reg.accounts, linked), pool := SaveEntry(reg.pool, bound)))
  }

  /** `getAccount(ldapId)` (and `add`, which behaves the same): the stored
      account unchanged when there is one, otherwise `createAccount`. */
  function GetAccount(reg: Registry, ldapId: string): (r: Effect<Account>)
    ensures Find(reg.accounts, ldapId).Some? ==> r == Effect(Ok(Find(reg.accounts, ldapId).value), reg)
    ensures Find(reg.accounts, ldapId).None? ==> r == CreateAccount(reg, ldapId)
    ensures r.result.Ok? ==> r.result.value.ldapId == ldapId && Find(r.reg.accounts, ldapId) == Some(r.result.value)
  {
    match Find(reg.accounts, ldapId)
    case Some(a) => Effect(Ok(a), reg)
    case None => CreateAccount(reg, ldapId)
  }

  /** `addMerchant(name)`: a merchant account named after its id with a zero
      balance; pool exhaustion fails before anything is saved. The first
      free entry is saved as owned by the merchant, and since the account
      side of the link is loaded from that entry, the stored merchant is
      bound to it. The merchant handed back is the one saved before the
      link was made, so it carries no binding itself. */
  function AddMerchant(reg: Registry, name: string): (r: Effect<Account>)
    ensures r.result.Err? <==> BindFreeAccount(reg.pool).None?
    ensures r.result.Err? ==> r == Effect(Err(ErisAccountNotFound(name)), reg)
    ensures r.result.Ok? ==>
      var m := r.result.value;
      var e := BindFreeAccount(reg.pool).value.(owner := Some(name));
      && m.ldapId == name && m.fullName == Some(name) && m.amount == Some(0.0)
      && m.accountType == Some(Merchant) && m.erisAccount.None? && m.image.None?
      && Find(r.reg.accounts, name) == Some(m.(erisAccount := Some(e)))
      && e in r.reg.pool
      && r.reg.directory == reg.directory
  {
    var m := NewAccount(name, 0.0).(fullName := Some(name), accountType := Some(Merchant));
    match BindFreeAccount(reg.pool)
    case None => Effect(Err(ErisAccountNotFound(name)), reg)
    case Some(e) =>
      var bound := e.(owner := Some(name));
      var stored := m.(erisAccount := Some(bound));
      FindAfterSave(reg.accounts, stored, name);
      Effect(Ok(m), reg.(accounts := Save(reg.accounts, stored), pool := SaveEntry(reg.pool, bound)))
  }

  // ---------------------------------------------------------------------
  // Properties across calls
  // ---------------------------------------------------------------------

  /** Creating or looking up one account leaves every other id's account as
      it was. */
  lemma GetAccountOthersUnchanged(reg: Registry, ldapId: string, other: string)
    requires other != ldapId
    ensures Find(GetAccount(reg, ldapId).reg.accounts, other) == Find(reg.accounts, other)
  {
    if Find(reg.accounts, ldapId).None? && CreateAccount(reg, ldapId).result.Ok? {
      FindAfterSave(reg.accounts, CreateAccount(reg, ldapId).result.value, other);
    }
  }

  /** A second lookup of the same id finds the account the first one
      returned or created, and changes nothing. */
  lemma GetAccountIdempotent(reg: Registry, ldapId: string)
    requires GetAccount(reg, ldapId).result.Ok?
    ensures var r1 := GetAccount(reg, ldapId);
      GetAccount(r1.reg, ldapId) == Effect(r1.result, r1.reg)
  {
  }

  /** Once an entry is handed out it is no longer free: in a pool with no
      repeated address, the entry a new account took is never handed out
      again. */
  lemma CreatedEntryTaken(reg: Registry, ldapId: string)
    requires DistinctAddrs(reg.pool)
    requires CreateAccount(reg, ldapId).result.Ok?
    ensures var r := CreateAccount(reg, ldapId);
      && DistinctAddrs(r.reg.pool)
      && forall x :: x in r.reg.pool && x.address == r.result.value.erisAccount.value.address ==> x.owner == Some(ldapId)
  {
    var e := BindFreeAccount(reg.pool).value;
    SaveEntryDistinct(reg.pool, e.(owner := Some(ldapId)));
  }

  /** Two accounts created one after the other never share a blockchain
      account. */
  lemma CreatedAccountsDistinct(reg: Registry, id1: string, id2: string)
    requires DistinctAddrs(reg.pool)
    requires CreateAccount(reg, id1).result.Ok?
    ensures var r1 := CreateAccount(reg, id1);
      var r2 := CreateAccount(r1.reg, id2);
      r2.result.Ok? ==> r1.result.value.erisAccount.value.address != r2.result.value.erisAccount.value.address
  {
    var r1 := CreateAccount(reg, id1);
    CreatedEntryTaken(reg, id1);
    if CreateAccount(r1.reg, id2).result.Ok? {
      var e2 := BindFreeAccount(r1.reg.pool).value;
      assert e2 in r1.reg.pool && e2.owner.None?;
    }
  }
}

=== FILE: audit.dfy ===
/** The audit aspect (`TransactionSavingAspect`): around every operation
    marked `@SaveTransaction` it builds a `Transaction` record from the
    operation's outcome and arguments and saves it on every path. */
module Audit {
  import opened Wrappers
  import opened Errors
  import opened Strings
  import opened Entities
  import opened Accounts

  /** An argument of the intercepted call, by its Java type. */
  datatype ArgValue = StrArg(s: string) | DecArg(d: real) | OtherArg | NullArg

  /** A parameter name of the intercepted method with the argument passed. */
  datatype Param = Param(name: string, value: ArgValue)

  /** The `accountName` and `destinationName` attributes of the
      annotation; "" is their default. (Its `comment` attribute is never
      read by the aspect.) */
  datatype Annotation = Annotation(accountName: string, destinationName: string)

  /** What the intercepted call did: returned a `Transaction`, returned
      some other value, or threw. */
  datatype Outcome<V> = ReturnedTransaction(t: Transaction) | ReturnedValue(v: V) | Threw(e: Exc)

  /** What the aspect hands back to the caller, and the records it saved,
      in order. */
  datatype Audited<V> = Audited(result: Outcome<V>, saved: seq<Transaction>)

  /** The live balance of an account by `ldapId` (`coinService.getAmount`),
      which may fail. */
  type Balances = string -> Result<real, Exc>

  // ---------------------------------------------------------------------
  // Arguments
  // ---------------------------------------------------------------------

  /** The parameter at `i` is the first one whose name matches `name`
      ignoring case. */
  predicate FirstMatch(params: seq<Param>, name: string, i: int) {
    && 0 <= i < |params|
    && EqualsIgnoreCase(params[i].name, name)
    && forall j :: 0 <= j < i ==> !EqualsIgnoreCase(params[j].name, name)
  }

  /** The loop of `getArg`: the argument of the first parameter whose name
      matches, whatever its type. */
  function Named(params: seq<Param>, name: string): (r: Option<ArgValue>)
    ensures r.None? <==> forall i :: 0 <= i < |params| ==> !EqualsIgnoreCase(params[i].name, name)
    ensures r.Some? ==> exists i :: FirstMatch(params, name, i) && r.value == params[i].value
  {
    if params == [] then None
    else if EqualsIgnoreCase(params[0].name, name) then
      assert FirstMatch(params, name, 0);
      Some(params[0].value)
    else
      var r := Named(params[1..], name);
      if r.Some? then
        var i :| FirstMatch(params[1..], name, i) && r.value == params[1..][i].value;
        assert FirstMatch(params, name, i + 1);
        r
      else r
  }

  /** `getArg(name, String.class)`: the first matching argument when it is a
      string; `null` when there is no such parameter, or when the first
      matching one holds something else (later matches are not looked at). */
  function StringArg(params: seq<Param>, name: string): (r: Option<string>)
    ensures r.Some? <==> exists i :: FirstMatch(params, name, i) && params[i].value.StrArg?
    ensures forall i :: FirstMatch(params, name, i) && params[i].value.StrArg? ==> r == Some(params[i].value.s)
  {
    FirstMatchUnique(params, name);
    match Named(params, name)
    case Some(StrArg(s)) => Some(s)
    case _ => None
  }

  /** `getArg(name, BigDecimal.class)`, likewise for decimals. */
  function DecimalArg(params: seq<Param>, name: string): (r: Option<real>)
    ensures r.Some? <==> exists i :: FirstMatch(params, name, i) && params[i].value.DecArg?
    ensures forall i :: FirstMatch(params, name, i) && params[i].value.DecArg? ==> r == Some(params[i].value.d)
  {
    FirstMatchUnique(params, name);
    match Named(params, name)
    case Some(DecArg(d)) => Some(d)
    case _ => None
  }

  /** There is at most one first match. */
  lemma FirstMatchUnique(params: seq<Param>, name: string)
    ensures forall i, j :: FirstMatch(params, name, i) && FirstMatch(params, name, j) ==> i == j
  {
  }

  /** `getAccount` / `getDestination`: the name is the annotation attribute
      when it is set, otherwise the string argument `argName`; a missing
      name gives no account, a present one the stored account, if any. */
  function ResolveAccount(attribute: string, params: seq<Param>, argName: string, accounts: seq<Account>): (r: Option<Account>)
    ensures attribute != "" ==> r == Find(accounts, attribute)
    ensures attribute == "" && StringArg(params, argName).None? ==> r.None?
    ensures attribute == "" && StringArg(params, argName).Some? ==> r == Find(accounts, StringArg(params, argName).value)
  {
    var name := if attribute == "" then StringArg(params, argName) else Some(attribute);
    match name
    case None => None
    case Some(n) => Find(accounts, n)
  }

  // ---------------------------------------------------------------------
  // Filling the record
  // ---------------------------------------------------------------------

  /** `replaceIfNull`: a field that is already set keeps its value. */
  function ReplaceIfNull<T>(current: Option<T>, value: Option<T>): (r: Option<T>)
    ensures current.Some? ==> r == current
    ensures current.None? ==> r == value
  {
    if current.None? then value else current
  }

  /** `fillTransaction`: account, destination, amount and comment are taken
      from the annotation and arguments only where the record has none; the
      creation time is always set. Nothing else changes. */
  function FillTransaction(t: Transaction, ann: Annotation, params: seq<Param>, accounts: seq<Account>, now: int): (r: Transaction)
    ensures r.txId == t.txId && r.remain == t.remain && r.status == t.status && r.error == t.error
    ensures r.created == Some(now)
    ensures r.account == ReplaceIfNull(t.account, ResolveAccount(ann.accountName, params, "accountName", accounts))
    ensures r.destination == ReplaceIfNull(t.destination, ResolveAccount(ann.destinationName, params, "destinationName", accounts))
    ensures r.amount == ReplaceIfNull(t.amount, DecimalArg(params, "amount"))
    ensures r.comment == ReplaceIfNull(t.comment, StringArg(params, "comment"))
  {
    t.(account := ReplaceIfNull(t.account, ResolveAccount(ann.accountName, params, "accountName", accounts)),
       destination := ReplaceIfNull(t.destination, ResolveAccount(ann.destinationName, params, "destinationName", accounts)),
       amount := ReplaceIfNull(t.amount, DecimalArg(params, "amount")),
       comment := ReplaceIfNull(t.comment, StringArg(params, "comment")),
       created := Some(now))
  }

  /** Filling twice is filling once, with the later time. */
  lemma FillTwice(t: Transaction, ann: Annotation, params: seq<Param>, accounts: seq<Account>, now1: int, now2: int)
    ensures FillTransaction(FillTransaction(t, ann, params, accounts, now1), ann, params, accounts, now2)
         == FillTransaction(t, ann, params, accounts, now2)
  {
  }

  /** `setRemainAmount`: the live balance of the record's account, or else
      of the `accountName` argument; left unset when there is neither. A
      failing balance query fails the whole step. */
  function SetRemain(t: Transaction, params: seq<Param>, balance: Balances): (r: Result<Transaction, Exc>)
    ensures t.account.None? && StringArg(params, "accountName").None? ==> r == Ok(t)
    ensures t.account.Some? ==> r.Ok? == balance(t.account.value.ldapId).Ok?
    ensures t.account.Some? && r.Ok? ==> r.value == t.(remain := Some(balance(t.account.value.ldapId).value))
    ensures t.account.None? && StringArg(params, "accountName").Some? ==>
      var n := StringArg(params, "accountName").value;
      && r.Ok? == balance(n).Ok?
      && (r.Ok? ==> r.value == t.(remain := Some(balance(n).value)))
    ensures r.Err? ==> r.error == balance(RemainName(t, params).value).error
  {
    match RemainName(t, params)
    case None => Ok(t)
    case Some(n) =>
      match balance(n)
      case Err(e) => Err(e)
      case Ok(x) => Ok(t.(remain := Some(x)))
  }

  /** The account whose balance becomes the record's remainder. */
  function RemainName(t: Transaction, params: seq<Param>): Option<string> {
    if t.account.Some? then Some(t.account.value.ldapId) else StringArg(params, "accountName")
  }

  // ---------------------------------------------------------------------
  // saveTransaction
  // ---------------------------------------------------------------------

  /** The record of a call that threw `e`, or whose remainder could not be
      read: FAILED with the exception's message, then filled. */
  function FailedRecord(t: Transaction, e: Exc, ann: Annotation, params: seq<Param>, accounts: seq<Account>, now: int): Transaction {
    FillTransaction(t.(status := Some(Failed), error := Message(e)), ann, params, accounts, now)
  }

  /** `saveTransaction`: the record is the returned `Transaction`, or a new
      one; it is saved on every path. A returned `Transaction` is saved
      twice (once for the value returned, once in `finally`), and the saved
      record is what the caller gets; another return value is passed back
      unchanged; an exception, or a failure reading the remainder, marks the
      record FAILED and is rethrown. */
  function SaveTransaction<V>(outcome: Outcome<V>, ann: Annotation, params: seq<Param>, accounts: seq<Account>,
                              balance: Balances, now: int): (r: Audited<V>)
    ensures |r.saved| >= 1
    ensures var rec := r.saved[|r.saved| - 1];
      && (|r.saved| == 2 <==> outcome.ReturnedTransaction? && r.result.ReturnedTransaction?)
      && (|r.saved| == 2 ==> r.saved[0] == rec && r.result == ReturnedTransaction(rec))
      && (outcome.Threw? ==> r.result == outcome && rec.status == Some(Failed) && rec.error == Message(outcome.e))
      && (outcome.ReturnedValue? && r.result.ReturnedValue? ==> r.result == outcome)
      && (r.result.Threw? <==> rec.status == Some(Failed))
      && (r.result.Threw? ==> rec.error == Message(r.result.e))
      && (!outcome.Threw? ==> (r.result.Threw? <==> SetRemain(FillTransaction(Base(outcome), ann, params, accounts, now),
                                                              params, balance).Err?))
      && (outcome.ReturnedTransaction? ==> rec.txId == outcome.t.txId)
      && (outcome.ReturnedTransaction? && outcome.t.account.Some? ==> rec.account == outcome.t.account)
      && (outcome.ReturnedTransaction? && outcome.t.comment.Some? ==> rec.comment == outcome.t.comment)
      && (!outcome.ReturnedTransaction? ==> rec.txId.None? && rec.comment == StringArg(params, "comment"))
      && rec.created == Some(now)
    ensures var rec := r.saved[|r.saved| - 1];
      var base := Base(outcome);
      && rec.txId == base.txId
      && rec.account == ReplaceIfNull(base.account, ResolveAccount(ann.accountName, params, "accountName", accounts))
      && rec.destination == ReplaceIfNull(base.destination,
                                          ResolveAccount(ann.destinationName, params, "destinationName", accounts))
      && rec.amount == ReplaceIfNull(base.amount, DecimalArg(params, "amount"))
      && rec.comment == ReplaceIfNull(base.comment, StringArg(params, "comment"))
    ensures var rec := r.saved[|r.saved| - 1];
      var base := Base(outcome);
      !r.result.Threw? ==>
        && rec.status == Some(Success)
        && rec.error == base.error
        && (RemainName(rec, params).None? ==> rec.remain == base.remain)
        && (RemainName(rec, params).Some? ==> rec.remain == Some(balance(RemainName(rec, params).value).value))
    ensures var rec := r.saved[|r.saved| - 1];
      r.result.Threw? ==> rec.remain == Base(outcome).remain
    ensures !outcome.Threw? && r.result.Threw? ==>
      var filled := FillTransaction(Base(outcome), ann, params, accounts, now);
      && RemainName(filled, params).Some?
      && r.result.e == balance(RemainName(filled, params).value).error
  {
    var base := Base(outcome);
    match outcome
    case Threw(e) =>
      Audited(outcome, [FailedRecord(base, e, ann, params, accounts, now)])
    case _ =>
      var filled := FillTransaction(base, ann, params, accounts, now).(status := Some(Success));
      match SetRemain(filled, params, balance)
      case Err(e) =>
        Audited(Threw(e), [FailedRecord(filled, e, ann, params, accounts, now)])
      case Ok(rec) =>
        if outcome.ReturnedTransaction? then Audited(ReturnedTransaction(rec), [rec, rec])
        else Audited(outcome, [rec])
  }

  /** The record the aspect starts from. */
  function Base<V>(outcome: Outcome<V>): Transaction {
    if outcome.ReturnedTransaction? then outcome.t else EmptyTransaction
  }
}

=== FILE: batch.dfy ===
/** Batch fills (`FillAccountsService`): an uploaded list of rows is
    accepted only when the treasury can cover it, becomes one fill task per
    row under a fresh id, and its progress is reported by that id. */
module Batch {
  import opened Wrappers
  import opened Errors
  import opened Entities
  import opened Chain
  import opened Coins

  /** One row of the uploaded file: the account to fill and the coins. */
  datatype Row = Row(account: string, coins: real)

  /** A submitted task: the `fillAccount(account, coins, …)` call it runs,
      and its state. A task that threw carries the message its
      `ExecutionException` reports. */
  datatype Task =
    | Pending(account: string, coins: real)
    | Completed(account: string, coins: real, t: Transaction)
    | Threw(account: string, coins: real, message: Option<string>)

  /** The submitted batches, by id. */
  type Jobs = map<string, seq<Task>>

  const NotEnoughInTreasury: string := "Not enough coins in treasury!"
  const FileMistakes: string := "File contains mistakes"

  /** The total of the rows' coins, summed exactly. */
  function Total(rows: seq<Row>): real {
    if rows == [] then 0.0 else Total(rows[..|rows| - 1]) + rows[|rows| - 1].coins
  }

  /** The total of a batch split anywhere is the sum of the parts' totals. */
  lemma {:induction false} TotalAppend(a: seq<Row>, b: seq<Row>)
    ensures Total(a + b) == Total(a) + Total(b)
    decreases |b|
  {
    if b != [] {
      assert (a + b)[..|a + b| - 1] == a + b[..|b| - 1];
      TotalAppend(a, b[..|b| - 1]);
    } else {
      assert a + b == a;
    }
  }

  /** `planJob`: the task for a row, not yet run. */
  function Plan(rows: seq<Row>): (tasks: seq<Task>)
    ensures |tasks| == |rows|
    ensures forall i :: 0 <= i < |rows| ==> tasks[i] == Pending(rows[i].account, rows[i].coins)
  {
    seq(|rows|, i requires 0 <= i < |rows| => Pending(rows[i].account, rows[i].coins))
  }

  /** `isEnoughInTreasury`: the batch total must be strictly below the
      treasury's live balance. */
  predicate EnoughInTreasury(total: real, treasury: real) {
    total < treasury
  }

  /** `fillAccounts(file)`, given the rows read from it (`None` when it
      cannot be read) and the fresh id a new batch gets: an unreadable file
      and a failing treasury query are reported as such; a batch the
      treasury does not strictly cover is refused; otherwise one pending
      task per row, in row order, is registered under the fresh id. Only a
      successful batch changes the jobs. */
  function FillAccounts(cfg: Config, chain: Ledger, jobs: Jobs, rows: Option<seq<Row>>, freshId: string)
    : (r: (Result<string, Exc>, Jobs, seq<Call>))
    ensures rows.None? ==> r == (Err(CouldNotReadFile(FileMistakes)), jobs, [])
    ensures rows.Some? ==> r.2 == GetTreasuryAmount(cfg, chain).1
    ensures rows.Some? && GetTreasuryAmount(cfg, chain).0.Err? ==> r.0 == Err(GetTreasuryAmount(cfg, chain).0.error)
    ensures r.0.Ok? <==> rows.Some? && GetTreasuryAmount(cfg, chain).0.Ok? &&
                         Total(rows.value) < GetTreasuryAmount(cfg, chain).0.value
    ensures rows.Some? && GetTreasuryAmount(cfg, chain).0.Ok? &&
            Total(rows.value) >= GetTreasuryAmount(cfg, chain).0.value ==>
      r.0 == Err(NotEnoughAmountInTreasury(NotEnoughInTreasury))
    ensures r.0.Err? ==> r.1 == jobs
    ensures r.0.Ok? ==> r.0.value == freshId && r.1 == jobs[freshId := Plan(rows.value)]
  {
    match rows
    case None => (Err(CouldNotReadFile(FileMistakes)), jobs, [])
    case Some(rs) =>
      var (treasury, calls) := GetTreasuryAmount(cfg, chain);
      match treasury
      case Err(e) => (Err(e), jobs, calls)
      case Ok(balance) =>
        if !EnoughInTreasury(Total(rs), balance) then (Err(NotEnoughAmountInTreasury(NotEnoughInTreasury)), jobs, calls)
        else (Ok(freshId), jobs[freshId := Plan(rs)], calls)
  }

  /** A batch whose total equals the treasury's balance is refused. */
  lemma ExactTotalRefused(cfg: Config, chain: Ledger, jobs: Jobs, rows: seq<Row>, freshId: string)
    requires GetTreasuryAmount(cfg, chain).0 == Ok(Total(rows))
    ensures FillAccounts(cfg, chain, jobs, Some(rows), freshId).0 == Err(NotEnoughAmountInTreasury(NotEnoughInTreasury))
    ensures FillAccounts(cfg, chain, jobs, Some(rows), freshId).1 == jobs
  {
  }

  /** Dropping trailing rows that carry no negative coins keeps an accepted
      batch accepted. */
  lemma PrefixAccepted(cfg: Config, chain: Ledger, jobs: Jobs, rows: seq<Row>, n: nat, freshId: string)
    requires n <= |rows|
    requires forall i :: n <= i < |rows| ==> rows[i].coins >= 0.0
    requires FillAccounts(cfg, chain, jobs, Some(rows), freshId).0.Ok?
    ensures FillAccounts(cfg, chain, jobs, Some(rows[..n]), freshId).0.Ok?
  {
    assert rows == rows[..n] + rows[n..];
    TotalAppend(rows[..n], rows[n..]);
    NonNegativeTotal(rows[n..]);
  }

  /** Rows with no negative coins have a non-negative total. */
  lemma {:induction false} NonNegativeTotal(rows: seq<Row>)
    requires forall i :: 0 <= i < |rows| ==> rows[i].coins >= 0.0
    ensures Total(rows) >= 0.0
  {
    if rows != [] {
      NonNegativeTotal(rows[..|rows| - 1]);
    }
  }

  // ---------------------------------------------------------------------
  // checkProcessing
  // ---------------------------------------------------------------------

  /** `Future.isDone`: the task finished, normally or not. */
  predicate Finished(t: Task) {
    !t.Pending?
  }

  /** The positions of the finished tasks. */
  ghost function FinishedAt(tasks: seq<Task>): set<int> {
    set i | 0 <= i < |tasks| && Finished(tasks[i])
  }

  /** The number of finished tasks. */
  function CountDone(tasks: seq<Task>): (n: nat)
    ensures n <= |tasks|
    ensures n == |FinishedAt(tasks)|
  {
    if tasks == [] then
      assert FinishedAt(tasks) == {};
      0
    else
      var k := |tasks| - 1;
      var init := tasks[..k];
      assert forall i :: 0 <= i < k ==> init[i] == tasks[i];
      assert FinishedAt(tasks) == FinishedAt(init) + (if Finished(tasks[k]) then {k} else {});
      assert k !in FinishedAt(init);
      CountDone(init) + (if Finished(tasks[k]) then 1 else 0)
  }

  /** All tasks are counted as finished exactly when every one is. */
  lemma {:induction false} CountDoneAll(tasks: seq<Task>)
    ensures CountDone(tasks) == |tasks| <==> forall i :: 0 <= i < |tasks| ==> Finished(tasks[i])
  {
    if tasks != [] {
      var init := tasks[..|tasks| - 1];
      CountDoneAll(init);
      assert forall i :: 0 <= i < |init| ==> init[i] == tasks[i];
    }
  }

  /** `f.get()` of a finished task: its transaction, or for a task that
      threw a FAILED record whose comment is the exception's message. */
  function Settled(t: Task): (r: Transaction)
    requires Finished(t)
    ensures t.Threw? ==> r == EmptyTransaction.(status := Some(Failed), comment := t.message)
    ensures t.Completed? ==> r == t.t
  {
    match t
    case Completed(_, _, tx) => tx
    case Threw(_, _, msg) => EmptyTransaction.(status := Some(Failed), comment := msg)
  }

  /** The progress report of a batch. */
  datatype Check = Check(isDone: nat, total: nat, transactions: Option<seq<Transaction>>)

  /** `checkProcessing(id)`: how many of the batch's tasks are done out of how
      many; once all are done, one record per task in task order. An
      unknown id dereferences `null`. */
  method CheckProcessing(jobs: Jobs, id: string) returns (r: Result<Check, Exc>)
    ensures id !in jobs <==> r == Err(NullPointer)
    ensures r.Ok? ==> r.value.total == |jobs[id]| && r.value.isDone == CountDone(jobs[id])
    ensures r.Ok? ==> r.value.isDone <= r.value.total
    ensures r.Ok? ==> (r.value.transactions.Some? <==> forall i :: 0 <= i < |jobs[id]| ==> Finished(jobs[id][i]))
    ensures r.Ok? && r.value.transactions.Some? ==>
      |r.value.transactions.value| == |jobs[id]| &&
      forall i :: 0 <= i < |jobs[id]| ==> Finished(jobs[id][i]) && r.value.transactions.value[i] == Settled(jobs[id][i])
  {
    if id !in jobs {
      return Err(NullPointer);
    }
    var tasks := jobs[id];
    var done := 0;
    var i := 0;
    while i < |tasks|
      invariant 0 <= i <= |tasks|
      invariant done == CountDone(tasks[..i])
    {
      assert tasks[..i + 1][..i] == tasks[..i];
      if Finished(tasks[i]) {
        done := done + 1;
      }
      i := i + 1;
    }
    assert tasks[..i] == tasks;
    CountDoneAll(tasks);
    if done != |tasks| {
      return Ok(Check(done, |tasks|, None));
    }
    var txs: seq<Transaction> := [];
    i := 0;
    while i < |tasks|
      invariant 0 <= i <= |tasks|
      invariant |txs| == i
      invariant forall k :: 0 <= k < i ==> txs[k] == Settled(tasks[k])
    {
      txs := txs + [Settled(tasks[i])];
      i := i + 1;
    }
    r := Ok(Check(done, |tasks|, Some(txs)));
  }
}

=== FILE: chain.dfy ===
/** The boundary to the blockchain: the contract calls the core issues and
    the responses it reads. The chain itself is not modelled; an operation
    receives it as an oracle from calls to replies and reports the calls it
    issued, in order. */
module Chain {
  import opened Wrappers
  import opened Errors
  import opened Entities

  /** Function names of the token and vault contracts. */
  const SendMoney: string := "transfer"
  const DistributeMoney: string := "distribute"
  const GetMoney: string := "balanceOf"
  const WithdrawMoney: string := "withdraw"
  const Deposit: string := "deposite"
  const ApproveTransfer: string := "approve"

  /** The token contract, or the offline vault that issues cheques. */
  datatype Contract = TokenContract | OfflineContract

  /** An argument of a contract call. */
  datatype Arg = Text(text: string) | Texts(texts: seq<string>) | Number(n: int) | Bytes(bytes: seq<bv8>)

  /** One contract call, signed by the blockchain account at `signer`. */
  datatype Call = Call(signer: string, contract: Contract, fn: string, args: seq<Arg>)

  /** A decoded return value: `Boolean`, `BigInteger`, `byte[]` or `null`. */
  datatype ChainValue = BoolValue(b: bool) | IntValue(i: int) | BytesValue(bytes: seq<bv8>) | NullValue

  /** `TxParams`: the transaction parameters of a response. */
  datatype TxParams = TxParams(txId: Option<string>)

  /** A contract response: return values, an error message, and the
      transaction parameters; each of them nullable. */
  datatype Response = Response(
    returnValues: Option<seq<ChainValue>>,
    error: Option<string>,
    txParams: Option<TxParams>)

  /** What a contract call gives back: a response, `null`, or an exception
      thrown by the client. */
  datatype Reply = Answered(response: Response) | NullReply | Raised(exc: Exc)

  /** The chain, as seen by the core. */
  type Ledger = Call -> Reply

  /** `amount.toBigInteger()`: the decimal truncated toward zero. */
  function Trunc(x: real): (r: int)
    ensures x >= 0.0 ==> 0 <= r && r as real <= x < r as real + 1.0
    ensures x < 0.0 ==> r <= 0 && r as real - 1.0 < x <= r as real
  {
    if x >= 0.0 then x.Floor else -((-x).Floor)
  }

  /** Truncation is odd and leaves whole amounts as they are. */
  lemma TruncSymmetric(x: real, n: int)
    ensures Trunc(-x) == -Trunc(x)
    ensures Trunc(n as real) == n
  {
  }

  /** The reading of a reply that every caller does first
      (`processResponseError`): a `null` response is dereferenced, an error
      field becomes an `ErisProcessingException` with its message and no
      cause, and an exception of the client passes through. */
  function Checked(reply: Reply): (r: Result<Response, Exc>)
    ensures r.Ok? <==> reply.Answered? && reply.response.error.None?
    ensures r.Ok? ==> r.value == reply.response
    ensures reply.NullReply? ==> r == Err(NullPointer)
    ensures reply.Raised? ==> r == Err(reply.exc)
    ensures reply.Answered? && reply.response.error.Some? ==>
      r == Err(ErisProcessing(reply.response.error.value, None))
  {
    match reply
    case NullReply => Err(NullPointer)
    case Raised(e) => Err(e)
    case Answered(resp) =>
      if resp.error.Some? then Err(ErisProcessing(resp.error.value, None)) else Ok(resp)
  }

  /** `Optional.ofNullable(r.getReturnValues()).flatMap(v -> ofNullable(v.get(0)))`:
      no value for a `null` list or a `null` first element, and
      `IndexOutOfBoundsException` for an empty list. */
  function FirstValue(resp: Response): (r: Result<Option<ChainValue>, Exc>)
    ensures r.Err? <==> resp.returnValues == Some([])
    ensures r.Err? ==> r.error == IndexOutOfBounds
    ensures r.Ok? && r.value.Some? <==>
      resp.returnValues.Some? && |resp.returnValues.value| > 0 && resp.returnValues.value[0] != NullValue
    ensures r.Ok? && r.value.Some? ==> r.value.value == resp.returnValues.value[0]
  {
    match resp.returnValues
    case None => Ok(None)
    case Some(vs) =>
      if |vs| == 0 then Err(IndexOutOfBounds)
      else if vs[0] == NullValue then Ok(None)
      else Ok(Some(vs[0]))
  }

  /** The primary result of a reply, when there is one: no error, a
      non-empty list of return values, and its first element. */
  predicate Returns(reply: Reply, v: ChainValue) {
    && reply.Answered?
    && reply.response.error.None?
    && reply.response.returnValues.Some?
    && |reply.response.returnValues.value| > 0
    && reply.response.returnValues.value[0] == v
  }

  /** Reading a Boolean success flag (`moveByEris`, `distribute`): `true`
      gives the response, a `null` or `false` flag
      `NotEnoughAmountInAccountException`, a flag of another type
      `ClassCastException`; the errors of `Checked` and `FirstValue` pass
      through. */
  function SuccessFlag(reply: Reply): (r: Result<Response, Exc>)
    ensures r.Ok? <==> Returns(reply, BoolValue(true))
    ensures r.Ok? ==> r.value == reply.response
    ensures Returns(reply, BoolValue(false)) || Returns(reply, NullValue) ==> r == Err(NotEnoughAmountInAccount)
    ensures Checked(reply).Ok? && reply.response.returnValues.None? ==> r == Err(NotEnoughAmountInAccount)
    ensures (exists v :: Returns(reply, v) && !v.BoolValue? && v != NullValue) ==> r == Err(ClassCast)
    ensures Checked(reply).Err? ==> r == Err(Checked(reply).error)
  {
    var resp :- Checked(reply);
    var first :- FirstValue(resp);
    match first
    case None => Err(NotEnoughAmountInAccount)
    case Some(BoolValue(b)) => if b then Ok(resp) else Err(NotEnoughAmountInAccount)
    case Some(_) => Err(ClassCast)
  }

  /** Reading a `BigInteger` result (`getAmountForErisAccount`): the value as
      a decimal; a missing value gives `ErisProcessingException("Wrong server
      response.")`, a value of another type `ClassCastException`. */
  function IntResult(reply: Reply): (r: Result<real, Exc>)
    ensures r.Ok? <==> exists i :: Returns(reply, IntValue(i))
    ensures forall i :: Returns(reply, IntValue(i)) ==> r == Ok(i as real)
    ensures Returns(reply, NullValue) ==> r == Err(ErisProcessing("Wrong server response.", None))
    ensures Checked(reply).Err? ==> r == Err(Checked(reply).error)
  {
    var resp :- Checked(reply);
    var first :- FirstValue(resp);
    match first
    case None => Err(ErisProcessing("Wrong server response.", None))
    case Some(IntValue(i)) => Ok(i as real)
    case Some(_) => Err(ClassCast)
  }

  /** `transfer(address, amount)` signed by `signer`. */
  function TransferCall(signer: string, address: string, amount: real): Call {
    Call(signer, TokenContract, SendMoney, [Text(address), Number(Trunc(amount))])
  }

  /** `balanceOf(address)` signed by the account itself. */
  function BalanceCall(address: string): Call {
    Call(address, TokenContract, GetMoney, [Text(address)])
  }

  /** `moveByEris`: one transfer call; the response is returned only when the
      chain reports success with `true`, and every failure, whatever its
      kind, is wrapped with the destination address. */
  function MoveByEris(chain: Ledger, signer: string, address: string, amount: real): (r: Result<Response, Exc>)
    ensures r.Ok? <==> Returns(chain(TransferCall(signer, address, amount)), BoolValue(true))
    ensures r.Err? ==> (r.error.ErisProcessing? && r.error.cause.Some?
                        && r.error.msg == "Can't move money for account " + address)
    ensures Returns(chain(TransferCall(signer, address, amount)), BoolValue(false)) ==>
      r.error.cause == Some(NotEnoughAmountInAccount)
  {
    match SuccessFlag(chain(TransferCall(signer, address, amount)))
    case Ok(resp) => Ok(resp)
    case Err(e) => Err(ErisProcessing("Can't move money for account " + address, Some(e)))
  }

  /** `getAmountForErisAccount`: one balance query, signed by the account
      queried; failures are wrapped with its address. */
  function BalanceOf(chain: Ledger, address: string): (r: Result<real, Exc>)
    ensures r.Ok? <==> exists i :: Returns(chain(BalanceCall(address)), IntValue(i))
    ensures forall i :: Returns(chain(BalanceCall(address)), IntValue(i)) ==> r == Ok(i as real)
    ensures r.Err? ==> (r.error.ErisProcessing? && r.error.cause.Some?
                        && r.error.msg == "Can't query balance for account " + address)
  {
    match IntResult(chain(BalanceCall(address)))
    case Ok(x) => Ok(x)
    case Err(e) => Err(ErisProcessing("Can't query balance for account " + address, Some(e)))
  }

  /** `mapToTransaction`: a record carrying the response's transaction id,
      or an empty record when there is none. */
  function MapToTransaction(resp: Option<Response>): (t: Transaction)
    ensures t == EmptyTransaction.(txId := t.txId)
    ensures t.txId.Some? <==> resp.Some? && resp.value.txParams.Some? && resp.value.txParams.value.txId.Some?
    ensures t.txId.Some? ==> t.txId == resp.value.txParams.value.txId
  {
    match resp
    case Some(Response(_, _, Some(TxParams(Some(id))))) => EmptyTransaction.(txId := Some(id))
    case _ => EmptyTransaction
  }
}

=== FILE: coins.dfy ===
/** The ledger transfer engine (`CoinService`): every value movement becomes
    token-contract calls, after checks on the amount, the accounts' bindings
    and the source's live balance on the chain. Each operation takes the
    engine state and the chain, and gives its outcome, the new state and the
    contract calls it issued, in order. */
module Coins {
  import opened Wrappers
  import opened Errors
  import opened Entities
  import opened Pool
  import opened Chain
  import opened Accounts

  /** Deployment settings: the treasury's blockchain account and the
      addresses of the token and offline-vault contracts. */
  datatype Config = Config(treasury: ErisAccount, tokenAddress: string, vaultAddress: string)

  /** The registry the engine works on, and the per-account monitor map. */
  datatype Engine = Engine(reg: Registry, monitors: map<string, string>)

  /** An outcome, the engine after it, and the contract calls issued. */
  datatype Step<T> = Step(result: Result<T, Exc>, engine: Engine, calls: seq<Call>)

  const NegativeAmount: string := "Amount can't be negative"

  // ---------------------------------------------------------------------
  // Bindings, monitors and the amount check
  // ---------------------------------------------------------------------

  /** The blockchain account bound to the stored account `ldapId`, if any. */
  function Binding(reg: Registry, ldapId: string): Option<ErisAccount> {
    match Find(reg.accounts, ldapId)
    case None => None
    case Some(a) => a.erisAccount
  }

  /** `getMonitor(id)`: the stored monitor, or `id` itself, recorded. */
  function GetMonitor(monitors: map<string, string>, id: string): (r: (map<string, string>, string))
    ensures id in r.0 && r.1 == r.0[id]
    ensures r.0.Keys == monitors.Keys + {id}
    ensures forall k :: k in monitors ==> r.0[k] == monitors[k]
    ensures id !in monitors ==> r.1 == id
  {
    if id in monitors then (monitors, monitors[id]) else (monitors[id := id], id)
  }

  /** Every monitor is its own key: the map only ever stores `id -> id`. */
  predicate SelfKeyed(monitors: map<string, string>) {
    forall k :: k in monitors ==> monitors[k] == k
  }

  /** `getMonitor` keeps the map self-keyed, hands out the id itself, and
      a second call with the same id changes nothing. */
  lemma GetMonitorFacts(monitors: map<string, string>, id: string)
    requires SelfKeyed(monitors)
    ensures SelfKeyed(GetMonitor(monitors, id).0)
    ensures GetMonitor(monitors, id).1 == id
    ensures GetMonitor(GetMonitor(monitors, id).0, id) == GetMonitor(monitors, id)
  {
  }

  /** `checkAmountIsPositive`: negative amounts are refused; zero is not. */
  function CheckAmountIsPositive(amount: real): (r: Option<Exc>)
    ensures r.Some? <==> amount < 0.0
    ensures r.Some? ==> r.value == IllegalArgument(NegativeAmount)
  {
    if amount < 0.0 then Some(IllegalArgument(NegativeAmount)) else None
  }

  /** `getErisAccount(ldapId)`: the bound blockchain account of the account
      `getAccount` finds or creates; an account without one is reported as
      not set. Only that id's account may change. */
  function GetErisAccount(eng: Engine, ldapId: string): (r: Step<ErisAccount>)
    ensures r.calls == [] && r.engine.monitors == eng.monitors
    ensures r.result.Ok? <==> Binding(r.engine.reg, ldapId).Some?
    ensures r.result.Ok? ==> r.result.value == Binding(r.engine.reg, ldapId).value
    ensures Find(eng.reg.accounts, ldapId).Some? ==> r.engine == eng
    ensures Find(eng.reg.accounts, ldapId).Some? && Find(eng.reg.accounts, ldapId).value.erisAccount.None? ==>
      r.result == Err(ErisProcessing("Eris account for user " + ldapId + "is not set.", None))
    ensures forall other :: other != ldapId ==> Binding(r.engine.reg, other) == Binding(eng.reg, other)
    ensures forall other :: other != ldapId ==> Find(r.engine.reg.accounts, other) == Find(eng.reg.accounts, other)
  {
    var g := GetAccount(eng.reg, ldapId);
    forall other | other != ldapId ensures Find(g.reg.accounts, other) == Find(eng.reg.accounts, other) {
      GetAccountOthersUnchanged(eng.reg, ldapId, other);
    }
    var e' := eng.(reg := g.reg);
    match g.result
    case Err(e) => Step(Err(e), e', [])
    case Ok(a) =>
      if a.erisAccount.None? then
        Step(Err(ErisProcessing("Eris account for user " + ldapId + "is not set.", None)), e', [])
      else Step(Ok(a.erisAccount.value), e', [])
  }

  /** A freshly created account resolves to the pool entry it took, and
      resolving it changes nothing more. */
  lemma CreatedResolves(eng: Engine, ldapId: string)
    requires CreateAccount(eng.reg, ldapId).result.Ok?
    ensures var c := CreateAccount(eng.reg, ldapId);
      var g := GetErisAccount(eng.(reg := c.reg), ldapId);
      g.result == Ok(c.result.value.erisAccount.value) && g.engine == eng.(reg := c.reg)
  {
  }

  /** A merchant added with a free entry resolves to that entry: payments to
      it and transfers from it reach the chain. */
  lemma MerchantResolves(eng: Engine, name: string)
    requires AddMerchant(eng.reg, name).result.Ok?
    ensures var m := AddMerchant(eng.reg, name);
      var g := GetErisAccount(eng.(reg := m.reg), name);
      && g.result == Ok(BindFreeAccount(eng.reg.pool).value.(owner := Some(name)))
      && g.engine == eng.(reg := m.reg)
  {
  }

  /** The chain reports a balance of at least `amount` for the blockchain
      account bound to `ldapId`. */
  ghost predicate Covers(chain: Ledger, reg: Registry, ldapId: string, amount: real) {
    && Binding(reg, ldapId).Some?
    && exists i :: Returns(chain(BalanceCall(Binding(reg, ldapId).value.address)), IntValue(i)) && amount <= i as real
  }

  /** The chain reports a balance below `amount` for that account. */
  ghost predicate Short(chain: Ledger, reg: Registry, ldapId: string, amount: real) {
    && Binding(reg, ldapId).Some?
    && exists i :: Returns(chain(BalanceCall(Binding(reg, ldapId).value.address)), IntValue(i)) && i as real < amount
  }

  /** `getAmount(ldapId)`: the live balance of the bound account, queried
      from the chain (never the cached amount); every failure, lookup ones
      included, is wrapped with the id. */
  function GetAmount(chain: Ledger, eng: Engine, ldapId: string): (r: Step<real>)
    ensures r.engine == GetErisAccount(eng, ldapId).engine
    ensures Binding(r.engine.reg, ldapId).None? ==> r.calls == []
    ensures Binding(r.engine.reg, ldapId).Some? ==> r.calls == [BalanceCall(Binding(r.engine.reg, ldapId).value.address)]
    ensures r.result.Ok? <==> (Binding(r.engine.reg, ldapId).Some? &&
      exists i :: Returns(chain(BalanceCall(Binding(r.engine.reg, ldapId).value.address)), IntValue(i)))
    ensures forall i :: (Binding(r.engine.reg, ldapId).Some? &&
      Returns(chain(BalanceCall(Binding(r.engine.reg, ldapId).value.address)), IntValue(i))) ==> r.result == Ok(i as real)
    ensures r.result.Err? ==> (r.result.error.ErisProcessing? && r.result.error.cause.Some?
                               && r.result.error.msg == "Can't query balance for account " + ldapId)
  {
    var g := GetErisAccount(eng, ldapId);
    match g.result
    case Err(e) => Step(Err(ErisProcessing("Can't query balance for account " + ldapId, Some(e))), g.engine, [])
    case Ok(acc) =>
      var calls := [BalanceCall(acc.address)];
      match BalanceOf(chain, acc.address)
      case Ok(x) => Step(Ok(x), g.engine, calls)
      case Err(e) => Step(Err(ErisProcessing("Can't query balance for account " + ldapId, Some(e))), g.engine, calls)
  }

  /** `checkEnoughAmount`: the amount check, then the live balance must
      cover the amount. */
  function CheckEnoughAmount(chain: Ledger, eng: Engine, ldapId: string, amount: real): (r: Step<()>)
    ensures amount < 0.0 ==> r == Step(Err(IllegalArgument(NegativeAmount)), eng, [])
    ensures amount >= 0.0 ==> r.engine == GetErisAccount(eng, ldapId).engine
    ensures r.result.Ok? <==> amount >= 0.0 && Covers(chain, r.engine.reg, ldapId, amount)
    ensures amount >= 0.0 && Short(chain, r.engine.reg, ldapId, amount) ==> r.result == Err(NotEnoughAmountInAccount)
    ensures forall c :: c in r.calls ==> c.fn == GetMoney
    ensures r.result.Ok? ==> r.calls == [BalanceCall(Binding(r.engine.reg, ldapId).value.address)]
  {
    match CheckAmountIsPositive(amount)
    case Some(e) => Step(Err(e), eng, [])
    case None =>
      var q := GetAmount(chain, eng, ldapId);
      match q.result
      case Err(e) => Step(Err(e), q.engine, q.calls)
      case Ok(current) =>
        if current < amount then Step(Err(NotEnoughAmountInAccount), q.engine, q.calls)
        else Step(Ok(()), q.engine, q.calls)
  }

  /** A transfer call is among the calls. */
  predicate HasTransfer(calls: seq<Call>) {
    exists k :: 0 <= k < |calls| && calls[k].fn == SendMoney
  }

  /** Balance queries are not transfers. */
  lemma QueriesOnly(queries: seq<Call>)
    requires forall c :: c in queries ==> c.fn == GetMoney
    ensures !HasTransfer(queries)
  {
  }

  /** Appending a transfer to balance queries makes the one transfer. */
  lemma HasTransferFacts(queries: seq<Call>, t: Call)
    requires forall c :: c in queries ==> c.fn == GetMoney
    requires t.fn == SendMoney
    ensures !HasTransfer(queries)
    ensures HasTransfer(queries + [t])
  {
    assert (queries + [t])[|queries|] == t;
  }

  /** Both accounts resolved in turn by `getErisAccount`: succeeds exactly
      when both end up bound, and gives their bindings. */
  function ResolveBoth(eng: Engine, first: string, second: string): (r: Step<(ErisAccount, ErisAccount)>)
    ensures r.calls == [] && r.engine.monitors == eng.monitors
    ensures r.result.Ok? <==> Binding(r.engine.reg, first).Some? && Binding(r.engine.reg, second).Some?
    ensures r.result.Ok? ==> r.result.value == (Binding(r.engine.reg, first).value, Binding(r.engine.reg, second).value)
    ensures forall other :: other != first && other != second ==>
      Find(r.engine.reg.accounts, other) == Find(eng.reg.accounts, other)
    ensures Find(eng.reg.accounts, first).Some? && Find(eng.reg.accounts, second).Some? ==> r.engine == eng
  {
    var d := GetErisAccount(eng, first);
    match d.result
    case Err(e) => Step(Err(e), d.engine, [])
    case Ok(x) =>
      var a := GetErisAccount(d.engine, second);
      assert first != second ==> Binding(a.engine.reg, first) == Binding(d.engine.reg, first);
      match a.result
      case Err(e) => Step(Err(e), a.engine, [])
      case Ok(y) => Step(Ok((x, y)), a.engine, [])
  }

  // ---------------------------------------------------------------------
  // fillAccount, move, buy, moveToTreasury
  // ---------------------------------------------------------------------

  /** `moveByEris` followed by `mapToTransaction`. */
  function Transfer(chain: Ledger, from: string, to: string, amount: real): (r: Result<Transaction, Exc>)
    ensures r.Ok? <==> Returns(chain(TransferCall(from, to, amount)), BoolValue(true))
    ensures r.Ok? ==> r.value == MapToTransaction(Some(chain(TransferCall(from, to, amount)).response))
    ensures r.Err? ==> r.error == MoveByEris(chain, from, to, amount).error
  {
    match MoveByEris(chain, from, to, amount)
    case Ok(resp) => Ok(MapToTransaction(Some(resp)))
    case Err(e) => Err(e)
  }

  /** `fillAccount(destinationName, amount)`: under the destination's
      monitor, one transfer from the treasury to the destination's bound
      address, made only for a non-negative amount and a bound destination. */
  function FillAccount(cfg: Config, chain: Ledger, eng: Engine, destinationName: string, amount: real): (r: Step<Transaction>)
    ensures r.engine.monitors == GetMonitor(eng.monitors, destinationName).0
    ensures amount < 0.0 ==> r.result == Err(IllegalArgument(NegativeAmount)) && r.calls == [] && r.engine.reg == eng.reg
    ensures HasTransfer(r.calls) <==> amount >= 0.0 && Binding(r.engine.reg, destinationName).Some?
    ensures HasTransfer(r.calls) ==>
      r.calls == [TransferCall(cfg.treasury.address, Binding(r.engine.reg, destinationName).value.address, amount)]
    ensures !HasTransfer(r.calls) ==> r.calls == [] && r.result.Err?
    ensures r.result.Ok? <==> HasTransfer(r.calls) && Returns(chain(r.calls[0]), BoolValue(true))
    ensures r.result.Ok? ==> r.result.value == MapToTransaction(Some(chain(r.calls[0]).response))
    ensures amount >= 0.0 ==> r.engine.reg == GetErisAccount(eng, destinationName).engine.reg
    ensures amount >= 0.0 && !HasTransfer(r.calls) ==> r.result.error == GetErisAccount(eng, destinationName).result.error
    ensures HasTransfer(r.calls) ==>
      r.result == Transfer(chain, cfg.treasury.address, Binding(r.engine.reg, destinationName).value.address, amount)
  {
    var (monitors, _) := GetMonitor(eng.monitors, destinationName);
    var eng0 := eng.(monitors := monitors);
    match CheckAmountIsPositive(amount)
    case Some(e) => QueriesOnly([]); Step(Err(e), eng0, [])
    case None =>
      var g := GetErisAccount(eng0, destinationName);
      match g.result
      case Err(e) => QueriesOnly([]); Step(Err(e), g.engine, [])
      case Ok(dest) =>
        var call := TransferCall(cfg.treasury.address, dest.address, amount);
        HasTransferFacts([], call);
        assert [] + [call] == [call];
        Step(Transfer(chain, cfg.treasury.address, dest.address, amount), g.engine, [call])
  }

  /** The transfer that follows a passed balance check, signed by the
      source's bound account. */
  function Settle(chain: Ledger, chk: Step<()>, from: string, to: string, amount: real): (r: Step<Transaction>)
    requires chk.result.Ok? && chk.calls == [BalanceCall(from)]
    ensures r.engine == chk.engine && r.calls == [BalanceCall(from), TransferCall(from, to, amount)]
    ensures HasTransfer(r.calls)
    ensures r.result.Ok? <==> Returns(chain(r.calls[1]), BoolValue(true))
    ensures r.result.Ok? ==> r.result.value == MapToTransaction(Some(chain(r.calls[1]).response))
    ensures r.result.Err? ==> r.result.error == MoveByEris(chain, from, to, amount).error
  {
    HasTransferFacts(chk.calls, TransferCall(from, to, amount));
    Step(Transfer(chain, from, to, amount), chk.engine, chk.calls + [TransferCall(from, to, amount)])
  }

  /** `move(accountName, destinationName, amount)`: both accounts are
      resolved, then the source's live balance is queried
      (`isEnoughAmount`, which after the amount check is
      `checkEnoughAmount`); the transfer is issued exactly when the amount
      is non-negative, the destination is bound and the live balance covers
      the amount. */
  function Move(chain: Ledger, eng: Engine, accountName: string, destinationName: string, amount: real): (r: Step<Transaction>)
    ensures r.engine.monitors == eng.monitors
    ensures amount >= 0.0 ==> r.engine == ResolveBoth(eng, accountName, destinationName).engine
    ensures amount >= 0.0 && ResolveBoth(eng, accountName, destinationName).result.Err? ==>
      r.result == Err(ResolveBoth(eng, accountName, destinationName).result.error)
    ensures var p := ResolveBoth(eng, accountName, destinationName);
      amount >= 0.0 && p.result.Ok? && CheckEnoughAmount(chain, p.engine, accountName, amount).result.Err? ==>
        r.result == Err(CheckEnoughAmount(chain, p.engine, accountName, amount).result.error)
    ensures amount < 0.0 ==> r == Step(Err(IllegalArgument(NegativeAmount)), eng, [])
    ensures HasTransfer(r.calls) <==>
      amount >= 0.0 && Binding(r.engine.reg, destinationName).Some? && Covers(chain, r.engine.reg, accountName, amount)
    ensures HasTransfer(r.calls) ==> r.calls == [
      BalanceCall(Binding(r.engine.reg, accountName).value.address),
      TransferCall(Binding(r.engine.reg, accountName).value.address,
                   Binding(r.engine.reg, destinationName).value.address, amount)]
    ensures amount >= 0.0 && Binding(r.engine.reg, destinationName).Some? && Short(chain, r.engine.reg, accountName, amount) ==>
      r.result == Err(NotEnoughAmountInAccount)
    ensures r.result.Ok? <==> HasTransfer(r.calls) && Returns(chain(r.calls[1]), BoolValue(true))
    ensures r.result.Ok? ==> r.result.value == MapToTransaction(Some(chain(r.calls[1]).response))
    ensures HasTransfer(r.calls) ==>
      r.result == Transfer(chain, Binding(r.engine.reg, accountName).value.address,
                           Binding(r.engine.reg, destinationName).value.address, amount)
  {
    match CheckAmountIsPositive(amount)
    case Some(e) => QueriesOnly([]); Step(Err(e), eng, [])
    case None =>
      var p := ResolveBoth(eng, accountName, destinationName);
      match p.result
      case Err(e) => QueriesOnly([]); Step(Err(e), p.engine, [])
      case Ok((donor, acceptor)) =>
        var chk := CheckEnoughAmount(chain, p.engine, accountName, amount);
        assert chk.engine == p.engine;
        if chk.result.Err? then
          QueriesOnly(chk.calls);
          Step(Err(chk.result.error), chk.engine, chk.calls)
        else Settle(chain, chk, donor.address, acceptor.address, amount)
  }

  /** `buy(destinationName, accountName, amount)`: under the buyer's monitor,
      `checkEnoughAmount` runs before the seller is resolved, so a refused
      purchase leaves every other account as it was. */
  function Buy(chain: Ledger, eng: Engine, destinationName: string, accountName: string, amount: real): (r: Step<Transaction>)
    ensures r.engine.monitors == GetMonitor(eng.monitors, accountName).0
    ensures amount < 0.0 ==> r.result == Err(IllegalArgument(NegativeAmount)) && r.calls == [] && r.engine.reg == eng.reg
    ensures HasTransfer(r.calls) <==>
      amount >= 0.0 && Binding(r.engine.reg, destinationName).Some? && Covers(chain, r.engine.reg, accountName, amount)
    ensures HasTransfer(r.calls) ==> r.calls == [
      BalanceCall(Binding(r.engine.reg, accountName).value.address),
      TransferCall(Binding(r.engine.reg, accountName).value.address,
                   Binding(r.engine.reg, destinationName).value.address, amount)]
    ensures amount >= 0.0 && Short(chain, r.engine.reg, accountName, amount) ==> r.result == Err(NotEnoughAmountInAccount)
    ensures forall other :: other != accountName && other != destinationName ==>
      Find(r.engine.reg.accounts, other) == Find(eng.reg.accounts, other)
    ensures Find(eng.reg.accounts, accountName).Some? && Find(eng.reg.accounts, destinationName).Some? ==>
      r.engine.reg == eng.reg
    ensures var chk := CheckEnoughAmount(chain, eng.(monitors := GetMonitor(eng.monitors, accountName).0), accountName, amount);
      && (chk.result.Err? ==> r.result == Err(chk.result.error))
      && (chk.result.Ok? && GetErisAccount(chk.engine, destinationName).result.Err? ==>
            r.result == Err(GetErisAccount(chk.engine, destinationName).result.error))
    ensures r.result == Err(NotEnoughAmountInAccount) ==> (!HasTransfer(r.calls) &&
      forall other :: other != accountName ==> Find(r.engine.reg.accounts, other) == Find(eng.reg.accounts, other))
    ensures r.result.Ok? <==> HasTransfer(r.calls) && Returns(chain(r.calls[1]), BoolValue(true))
    ensures r.result.Ok? ==> r.result.value == MapToTransaction(Some(chain(r.calls[1]).response))
    ensures HasTransfer(r.calls) ==>
      r.result == Transfer(chain, Binding(r.engine.reg, accountName).value.address,
                           Binding(r.engine.reg, destinationName).value.address, amount)
  {
    var (monitors, _) := GetMonitor(eng.monitors, accountName);
    var eng0 := eng.(monitors := monitors);
    var chk := CheckEnoughAmount(chain, eng0, accountName, amount);
    if chk.result.Err? then
      QueriesOnly(chk.calls);
      Step(Err(chk.result.error), chk.engine, chk.calls)
    else
      var from := Binding(chk.engine.reg, accountName).value.address;
      var s := GetErisAccount(chk.engine, destinationName);
      assert destinationName != accountName ==> Binding(s.engine.reg, accountName) == Binding(chk.engine.reg, accountName);
      match s.result
      case Err(e) => QueriesOnly(chk.calls); Step(Err(e), s.engine, chk.calls)
      case Ok(seller) => Settle(chain, chk.(engine := s.engine), from, seller.address, amount)
  }

  /** With both accounts stored and bound, `buy` and `move` issue the same
      calls and reach the same outcome, and neither changes the registry:
      they differ only in the monitor taken and in the order the accounts
      are resolved. */
  lemma BuyMatchesMove(chain: Ledger, eng: Engine, seller: string, buyer: string, amount: real)
    requires Binding(eng.reg, buyer).Some? && Binding(eng.reg, seller).Some?
    ensures var b := Buy(chain, eng, seller, buyer, amount);
      var m := Move(chain, eng, buyer, seller, amount);
      b.result == m.result && b.calls == m.calls && b.engine.reg == eng.reg && m.engine.reg == eng.reg
  {
  }

  /** `moveToTreasury(accountName, amount)`: the live balance is checked
      first (`isEnoughAmount`), then the account's own transfer to the
      treasury address. */
  function MoveToTreasury(cfg: Config, chain: Ledger, eng: Engine, accountName: string, amount: real): (r: Step<Transaction>)
    ensures r.engine.monitors == eng.monitors
    ensures amount < 0.0 ==> r == Step(Err(IllegalArgument(NegativeAmount)), eng, [])
    ensures amount >= 0.0 ==> r.engine == GetErisAccount(eng, accountName).engine
    ensures HasTransfer(r.calls) <==> amount >= 0.0 && Covers(chain, r.engine.reg, accountName, amount)
    ensures !HasTransfer(r.calls) ==> r.result == Err(CheckEnoughAmount(chain, eng, accountName, amount).result.error)
    ensures HasTransfer(r.calls) ==> r.calls == [
      BalanceCall(Binding(r.engine.reg, accountName).value.address),
      TransferCall(Binding(r.engine.reg, accountName).value.address, cfg.treasury.address, amount)]
    ensures amount >= 0.0 && Short(chain, r.engine.reg, accountName, amount) ==> r.result == Err(NotEnoughAmountInAccount)
    ensures r.result.Ok? <==> HasTransfer(r.calls) && Returns(chain(r.calls[1]), BoolValue(true))
    ensures r.result.Ok? ==> r.result.value == MapToTransaction(Some(chain(r.calls[1]).response))
    ensures HasTransfer(r.calls) ==>
      r.result == Transfer(chain, Binding(r.engine.reg, accountName).value.address, cfg.treasury.address, amount)
  {
    var chk := CheckEnoughAmount(chain, eng, accountName, amount);
    if chk.result.Err? then
      QueriesOnly(chk.calls);
      Step(Err(chk.result.error), chk.engine, chk.calls)
    else
      Settle(chain, chk, Binding(chk.engine.reg, accountName).value.address, cfg.treasury.address, amount)
  }

  /** For a stored destination, `fillAccount` leaves the registry as it
      was, issues its transfer exactly when the amount is non-negative and
      the destination is bound, and reports an unbound one as not set. */
  lemma FillAccountStored(cfg: Config, chain: Ledger, eng: Engine, destinationName: string, amount: real)
    requires Find(eng.reg.accounts, destinationName).Some?
    ensures var r := FillAccount(cfg, chain, eng, destinationName, amount);
      && r.engine.reg == eng.reg
      && (HasTransfer(r.calls) <==> amount >= 0.0 && Binding(eng.reg, destinationName).Some?)
      && (amount >= 0.0 && Binding(eng.reg, destinationName).None? ==>
            r.result == Err(ErisProcessing("Eris account for user " + destinationName + "is not set.", None)))
  {
  }

  /** For two stored accounts, `move` changes no state, and whether it
      transfers is decided by the input registry and the chain alone. */
  lemma MoveStored(chain: Ledger, eng: Engine, accountName: string, destinationName: string, amount: real)
    requires Find(eng.reg.accounts, accountName).Some? && Find(eng.reg.accounts, destinationName).Some?
    ensures var r := Move(chain, eng, accountName, destinationName, amount);
      && r.engine == eng
      && (HasTransfer(r.calls) <==>
            amount >= 0.0 && Binding(eng.reg, destinationName).Some? && Covers(chain, eng.reg, accountName, amount))
      && (amount >= 0.0 && Binding(eng.reg, destinationName).Some? && Short(chain, eng.reg, accountName, amount) ==>
            r.result == Err(NotEnoughAmountInAccount))
  {
  }

  /** For two stored accounts, `buy` leaves the registry as it was, and
      whether it transfers is decided by the input registry and the chain
      alone. */
  lemma BuyStored(chain: Ledger, eng: Engine, destinationName: string, accountName: string, amount: real)
    requires Find(eng.reg.accounts, accountName).Some? && Find(eng.reg.accounts, destinationName).Some?
    ensures var r := Buy(chain, eng, destinationName, accountName, amount);
      && r.engine.reg == eng.reg
      && (HasTransfer(r.calls) <==>
            amount >= 0.0 && Binding(eng.reg, destinationName).Some? && Covers(chain, eng.reg, accountName, amount))
      && (amount >= 0.0 && Short(chain, eng.reg, accountName, amount) ==> r.result == Err(NotEnoughAmountInAccount))
  {
  }

  /** For a stored account, `moveToTreasury` changes no state and transfers
      exactly when the amount is non-negative and the account's live
      balance, read at its input binding, covers it. */
  lemma MoveToTreasuryStored(cfg: Config, chain: Ledger, eng: Engine, accountName: string, amount: real)
    requires Find(eng.reg.accounts, accountName).Some?
    ensures var r := MoveToTreasury(cfg, chain, eng, accountName, amount);
      && r.engine == eng
      && (HasTransfer(r.calls) <==> amount >= 0.0 && Covers(chain, eng.reg, accountName, amount))
      && (amount >= 0.0 && Short(chain, eng.reg, accountName, amount) ==> r.result == Err(NotEnoughAmountInAccount))
  {
  }

  // ---------------------------------------------------------------------
  // distribute
  // ---------------------------------------------------------------------

  /** The bound addresses of the accounts, in order; `None` when one of them
      is unbound, where the stream's `getAddress` dereferences `null`. */
  function Addresses(accts: seq<Account>): (r: Option<seq<string>>)
    ensures r.Some? <==> forall i :: 0 <= i < |accts| ==> accts[i].erisAccount.Some?
    ensures r.Some? ==> (|r.value| == |accts| &&
      forall i :: 0 <= i < |accts| ==> r.value[i] == accts[i].erisAccount.value.address)
  {
    if accts == [] then Some([])
    else
      match Addresses(accts[..|accts| - 1])
      case None => None
      case Some(prefix) =>
        var last := accts[|accts| - 1];
        if last.erisAccount.None? then None else Some(prefix + [last.erisAccount.value.address])
  }

  const CantDistribute: string := "Can't distribute money."

  /** `distribute(addresses, amount)` signed by the treasury. */
  function DistributeCall(cfg: Config, addresses: seq<string>, amount: real): Call {
    Call(cfg.treasury.address, TokenContract, DistributeMoney, [Texts(addresses), Number(Trunc(amount))])
  }

  /** `distribute(amount)`: one call crediting every regular account, in
      store order; an unbound regular account stops it before any call. The
      amount is not checked for sign. Every failure is wrapped. */
  function Distribute(cfg: Config, chain: Ledger, eng: Engine, amount: real): (r: Step<()>)
    ensures r.engine == eng
    ensures var regular := AccountsOfType(eng.reg.accounts, Regular);
      && (Addresses(regular).None? ==> r.result == Err(ErisProcessing(CantDistribute, Some(NullPointer))) && r.calls == [])
      && (Addresses(regular).Some? ==> r.calls == [DistributeCall(cfg, Addresses(regular).value, amount)])
      && (r.result.Ok? <==> (Addresses(regular).Some? &&
           Returns(chain(DistributeCall(cfg, Addresses(regular).value, amount)), BoolValue(true))))
    ensures r.result.Err? ==> (r.result.error.ErisProcessing? && r.result.error.msg == CantDistribute
                               && r.result.error.cause.Some?)
  {
    match Addresses(AccountsOfType(eng.reg.accounts, Regular))
    case None => Step(Err(ErisProcessing(CantDistribute, Some(NullPointer))), eng, [])
    case Some(addresses) =>
      var call := DistributeCall(cfg, addresses, amount);
      match SuccessFlag(chain(call))
      case Ok(_) => Step(Ok(()), eng, [call])
      case Err(e) => Step(Err(ErisProcessing(CantDistribute, Some(e))), eng, [call])
  }

  // ---------------------------------------------------------------------
  // withdraw and deposit
  // ---------------------------------------------------------------------

  const CantWithdraw: string := "Can't withdraw money."

  /** The content of the cheque `withdraw` hands out (the `CashDTO`): token
      and vault addresses, the cheque bytes and the whole amount. */
  datatype Cheque = Cheque(tokenAddress: string, vaultAddress: string, cheque: seq<bv8>, amount: int)

  /** `approve(vault, amount)`, letting the vault pull the amount. */
  function ApproveCall(cfg: Config, from: string, amount: real): Call {
    Call(from, TokenContract, ApproveTransfer, [Text(cfg.vaultAddress), Number(Trunc(amount))])
  }

  /** The vault's `withdraw(token, amount)`, which issues the cheque. */
  function WithdrawCall(cfg: Config, from: string, amount: real): Call {
    Call(from, OfflineContract, WithdrawMoney, [Text(cfg.tokenAddress), Number(Trunc(amount))])
  }

  /** The approve and withdraw calls and the reading of the cheque. */
  function IssueCheque(cfg: Config, chain: Ledger, from: string, amount: real): (r: (Result<Cheque, Exc>, seq<Call>))
    ensures |r.1| >= 1 && r.1[0] == ApproveCall(cfg, from, amount)
    ensures |r.1| == 2 <==> Checked(chain(ApproveCall(cfg, from, amount))).Ok?
    ensures |r.1| == 2 ==> r.1[1] == WithdrawCall(cfg, from, amount)
    ensures r.0.Ok? <==> |r.1| == 2 && exists b :: Returns(chain(r.1[1]), BytesValue(b))
    ensures forall b :: |r.1| == 2 && Returns(chain(r.1[1]), BytesValue(b)) ==>
      r.0 == Ok(Cheque(cfg.tokenAddress, cfg.vaultAddress, b, Trunc(amount)))
    ensures |r.1| == 2 && Returns(chain(r.1[1]), NullValue) ==> r.0 == Err(ErisProcessing("Wrong server response.", None))
  {
    var approve := ApproveCall(cfg, from, amount);
    match Checked(chain(approve))
    case Err(e) => (Err(e), [approve])
    case Ok(_) =>
      var wd := WithdrawCall(cfg, from, amount);
      var calls := [approve, wd];
      match Checked(chain(wd))
      case Err(e) => (Err(e), calls)
      case Ok(resp) =>
        match FirstValue(resp)
        case Err(e) => (Err(e), calls)
        case Ok(None) => (Err(ErisProcessing("Wrong server response.", None)), calls)
        case Ok(Some(BytesValue(b))) => (Ok(Cheque(cfg.tokenAddress, cfg.vaultAddress, b, Trunc(amount))), calls)
        case Ok(Some(_)) => (Err(ClassCast), calls)
  }

  /** `withdraw(accountName, amount)`: `checkEnoughAmount` before any
      mutating call, then the approval and the vault's withdrawal, signed by
      the account. The approval's return value is not read, only its error.
      Every failure, the amount check included, is wrapped. */
  function Withdraw(cfg: Config, chain: Ledger, eng: Engine, accountName: string, amount: real): (r: Step<Cheque>)
    ensures r.engine.monitors == eng.monitors
    ensures amount < 0.0 ==>
      r == Step(Err(ErisProcessing(CantWithdraw, Some(IllegalArgument(NegativeAmount)))), eng, [])
    ensures amount >= 0.0 ==> r.engine == GetErisAccount(eng, accountName).engine
    ensures |r.calls| > 1 <==> amount >= 0.0 && Covers(chain, r.engine.reg, accountName, amount)
    ensures |r.calls| > 1 ==>
      var from := Binding(r.engine.reg, accountName).value.address;
      && r.calls[..2] == [BalanceCall(from), ApproveCall(cfg, from, amount)]
      && (|r.calls| == 3 <==> Checked(chain(ApproveCall(cfg, from, amount))).Ok?)
      && (|r.calls| == 3 ==> r.calls[2] == WithdrawCall(cfg, from, amount))
    ensures |r.calls| <= 1 ==> forall c :: c in r.calls ==> c.fn == GetMoney
    ensures r.result.Ok? ==> (|r.calls| == 3 && Returns(chain(r.calls[2]), BytesValue(r.result.value.cheque))
                              && r.result.value.amount == Trunc(amount))
    ensures r.result.Err? ==> (r.result.error.ErisProcessing? && r.result.error.msg == CantWithdraw
                               && r.result.error.cause.Some?)
  {
    var chk := CheckEnoughAmount(chain, eng, accountName, amount);
    if chk.result.Err? then
      Step(Err(ErisProcessing(CantWithdraw, Some(chk.result.error))), chk.engine, chk.calls)
    else
      var from := Binding(chk.engine.reg, accountName).value.address;
      var (res, issued) := IssueCheque(cfg, chain, from, amount);
      var calls := chk.calls + issued;
      assert calls[..2] == [BalanceCall(from), ApproveCall(cfg, from, amount)];
      match res
      case Ok(c) => Step(Ok(c), chk.engine, calls)
      case Err(e) => Step(Err(ErisProcessing(CantWithdraw, Some(e))), chk.engine, calls)
  }

  /** For a stored account, `withdraw` changes no state, makes its mutating
      calls exactly when the amount is non-negative and the live balance at
      the input binding covers it, and wraps a short balance. */
  lemma WithdrawStored(cfg: Config, chain: Ledger, eng: Engine, accountName: string, amount: real)
    requires Find(eng.reg.accounts, accountName).Some?
    ensures var r := Withdraw(cfg, chain, eng, accountName, amount);
      && r.engine == eng
      && (|r.calls| > 1 <==> amount >= 0.0 && Covers(chain, eng.reg, accountName, amount))
      && (amount >= 0.0 && Short(chain, eng.reg, accountName, amount) ==>
            r.result == Err(ErisProcessing(CantWithdraw, Some(NotEnoughAmountInAccount))))
  {
  }

  /** The vault's `deposite(hash, token)`, redeeming a cheque. */
  function DepositCall(from: string, hash: seq<bv8>, chequeToken: string): Call {
    Call(from, OfflineContract, Deposit, [Bytes(hash), Text(chequeToken)])
  }

  /** `deposit(cheque, accountName)`: the cheque hash, already decoded from
      hex (`None` when it is not valid hex), is redeemed by one vault call
      signed by the account. Only the response's error is read, and every
      failure is wrapped under the withdrawal message the source uses. */
  function DepositCheque(chain: Ledger, eng: Engine, hash: Option<seq<bv8>>, chequeToken: string, accountName: string): (r: Step<Transaction>)
    ensures r.engine == GetErisAccount(eng, accountName).engine
    ensures r.calls != [] <==> Binding(r.engine.reg, accountName).Some? && hash.Some?
    ensures r.calls != [] ==> r.calls == [DepositCall(Binding(r.engine.reg, accountName).value.address, hash.value, chequeToken)]
    ensures Binding(r.engine.reg, accountName).Some? && hash.None? ==> r.result == Err(ErisProcessing(CantWithdraw, Some(Decoder)))
    ensures r.result.Ok? <==> r.calls != [] && Checked(chain(r.calls[0])).Ok?
    ensures r.result.Ok? ==> r.result.value == MapToTransaction(Some(chain(r.calls[0]).response))
    ensures r.result.Err? ==> (r.result.error.ErisProcessing? && r.result.error.msg == CantWithdraw
                               && r.result.error.cause.Some?)
  {
    var g := GetErisAccount(eng, accountName);
    match g.result
    case Err(e) => Step(Err(ErisProcessing(CantWithdraw, Some(e))), g.engine, [])
    case Ok(acc) =>
      match hash
      case None => Step(Err(ErisProcessing(CantWithdraw, Some(Decoder))), g.engine, [])
      case Some(h) =>
        var call := DepositCall(acc.address, h, chequeToken);
        match Checked(chain(call))
        case Err(e) => Step(Err(ErisProcessing(CantWithdraw, Some(e))), g.engine, [call])
        case Ok(resp) => Step(Ok(MapToTransaction(Some(resp))), g.engine, [call])
  }

  // ---------------------------------------------------------------------
  // Balances: the treasury and whole account types
  // ---------------------------------------------------------------------

  /** `getTreasuryAmount()`: the treasury's live balance, wrapped once with
      its address on failure. */
  function GetTreasuryAmount(cfg: Config, chain: Ledger): (r: (Result<real, Exc>, seq<Call>))
    ensures r.1 == [BalanceCall(cfg.treasury.address)]
    ensures r.0.Ok? <==> exists i :: Returns(chain(r.1[0]), IntValue(i))
    ensures forall i :: Returns(chain(r.1[0]), IntValue(i)) ==> r.0 == Ok(i as real)
    ensures r.0.Err? ==> (r.0.error.ErisProcessing? && r.0.error.cause.Some?
                          && r.0.error.msg == "Can't query balance for account " + cfg.treasury.address)
  {
    (BalanceOf(chain, cfg.treasury.address), [BalanceCall(cfg.treasury.address)])
  }

  /** The account with its cached amount replaced by its live balance, when
      it is bound and the chain gives one. */
  function Refreshed(chain: Ledger, a: Account): Account {
    if a.erisAccount.Some? && BalanceOf(chain, a.erisAccount.value.address).Ok? then
      a.(amount := Some(BalanceOf(chain, a.erisAccount.value.address).value))
    else a
  }

  /** Reference definition: the sum of the live balances of the bound
      accounts, or the first failure in list order. */
  function LiveSum(chain: Ledger, accts: seq<Account>): Result<real, Exc> {
    if accts == [] then Ok(0.0)
    else
      match LiveSum(chain, accts[..|accts| - 1])
      case Err(e) => Err(e)
      case Ok(s) =>
        var last := accts[|accts| - 1];
        if last.erisAccount.None? then Ok(s)
        else
          match BalanceOf(chain, last.erisAccount.value.address)
          case Err(e) => Err(e)
          case Ok(x) => Ok(s + x)
  }

  /** The sum of the cached amounts of the bound accounts. */
  function CachedSum(accts: seq<Account>): real {
    if accts == [] then 0.0
    else
      var last := accts[|accts| - 1];
      CachedSum(accts[..|accts| - 1]) + (if last.erisAccount.Some? then last.amount.GetOr(0.0) else 0.0)
  }

  /** The sum is defined exactly when every bound account's balance can be
      read. */
  lemma {:induction false} LiveSumOk(chain: Ledger, accts: seq<Account>)
    ensures LiveSum(chain, accts).Ok? <==>
      forall i :: 0 <= i < |accts| && accts[i].erisAccount.Some? ==> BalanceOf(chain, accts[i].erisAccount.value.address).Ok?
  {
    if accts != [] {
      var init := accts[..|accts| - 1];
      LiveSumOk(chain, init);
      assert forall i :: 0 <= i < |init| ==> init[i] == accts[i];
    }
  }

  /** Once a prefix fails, the whole list fails the same way. */
  lemma {:induction false} LiveSumErrExtends(chain: Ledger, accts: seq<Account>, n: nat)
    requires n <= |accts| && LiveSum(chain, accts[..n]).Err?
    ensures LiveSum(chain, accts) == LiveSum(chain, accts[..n])
    decreases |accts| - n
  {
    if n < |accts| {
      var init := accts[..|accts| - 1];
      assert init[..n] == accts[..n];
      LiveSumErrExtends(chain, init, n);
    } else {
      assert accts[..n] == accts;
    }
  }

  /** What the live balance adds to the sum: nothing for an unbound
      account. */
  function Gain(chain: Ledger, a: Account): real {
    if a.erisAccount.Some? && BalanceOf(chain, a.erisAccount.value.address).Ok? then
      BalanceOf(chain, a.erisAccount.value.address).value
    else 0.0
  }

  /** The loop state after the first `i` accounts: their live sum and their
      refreshed copies. */
  predicate Progress(chain: Ledger, accts: seq<Account>, i: nat, sum: real, refreshed: seq<Account>) {
    && i <= |accts|
    && LiveSum(chain, accts[..i]) == Ok(sum)
    && |refreshed| == i
    && (forall k :: 0 <= k < i ==> refreshed[k] == Refreshed(chain, accts[k]))
    && sum == CachedSum(refreshed)
  }

  /** One more readable account keeps the loop state. */
  lemma ProgressStep(chain: Ledger, accts: seq<Account>, i: nat, sum: real, refreshed: seq<Account>)
    requires Progress(chain, accts, i, sum, refreshed) && i < |accts|
    requires accts[i].erisAccount.Some? ==> BalanceOf(chain, accts[i].erisAccount.value.address).Ok?
    ensures Progress(chain, accts, i + 1, sum + Gain(chain, accts[i]), refreshed + [Refreshed(chain, accts[i])])
  {
    var a := accts[i];
    var r' := refreshed + [Refreshed(chain, a)];
    assert accts[..i + 1][..i] == accts[..i];
    assert r'[..i] == refreshed;
    assert forall k :: 0 <= k < i ==> r'[k] == refreshed[k];
  }

  /** An unreadable account makes the whole sum fail with its error. */
  lemma ProgressFails(chain: Ledger, accts: seq<Account>, i: nat, sum: real, refreshed: seq<Account>)
    requires Progress(chain, accts, i, sum, refreshed) && i < |accts|
    requires accts[i].erisAccount.Some? && BalanceOf(chain, accts[i].erisAccount.value.address).Err?
    ensures LiveSum(chain, accts) == BalanceOf(chain, accts[i].erisAccount.value.address)
  {
    var upto := accts[..i + 1];
    assert upto[..|upto| - 1] == accts[..i] && upto[|upto| - 1] == accts[i];
    assert LiveSum(chain, accts[..i]) == Ok(sum);
    assert LiveSum(chain, upto) == BalanceOf(chain, accts[i].erisAccount.value.address);
    LiveSumErrExtends(chain, accts, i + 1);
  }

  /** Refreshing changes nothing but cached amounts: a refreshed prefix
      followed by the untouched rest differs from the listing only there. */
  lemma OnlyAmounts(chain: Ledger, accts: seq<Account>, refreshed: seq<Account>, i: nat)
    requires i <= |accts| && |refreshed| == i
    requires forall k :: 0 <= k < i ==> refreshed[k] == Refreshed(chain, accts[k])
    ensures var partly := refreshed + accts[i..];
      |partly| == |accts| && forall k :: 0 <= k < |partly| ==> partly[k] == accts[k].(amount := partly[k].amount)
  {
    var partly := refreshed + accts[i..];
    forall k | 0 <= k < |partly| ensures partly[k] == accts[k].(amount := partly[k].amount) {
      if k < i {
        assert partly[k] == Refreshed(chain, accts[k]);
      } else {
        assert partly[k] == accts[k];
      }
    }
  }

  /** The loop of `getAmountByAccountType` over a non-null listing. */
  method SumLive(chain: Ledger, accts: seq<Account>) returns (total: Result<real, Exc>, refreshed: seq<Account>, calls: seq<Call>)
    ensures total == LiveSum(chain, accts) && |refreshed| == |accts|
    ensures forall i :: 0 <= i < |refreshed| ==> refreshed[i] == accts[i].(amount := refreshed[i].amount)
    ensures total.Ok? ==> forall i :: 0 <= i < |refreshed| ==> refreshed[i] == Refreshed(chain, accts[i])
    ensures total.Ok? ==> total.value == CachedSum(refreshed)
    ensures forall c :: c in calls ==> c.fn == GetMoney
  {
    var sum := 0.0;
    refreshed := [];
    calls := [];
    var i := 0;
    while i < |accts|
      invariant Progress(chain, accts, i, sum, refreshed)
      invariant forall c :: c in calls ==> c.fn == GetMoney
    {
      var a := accts[i];
      if a.erisAccount.Some? {
        var addr := a.erisAccount.value.address;
        calls := calls + [BalanceCall(addr)];
        var b := BalanceOf(chain, addr);
        if b.Err? {
          ProgressFails(chain, accts, i, sum, refreshed);
          OnlyAmounts(chain, accts, refreshed, i);
          return b, refreshed + accts[i..], calls;
        }
      }
      ProgressStep(chain, accts, i, sum, refreshed);
      sum := sum + Gain(chain, a);
      refreshed := refreshed + [Refreshed(chain, a)];
      i := i + 1;
    }
    assert accts[..i] == accts;
    OnlyAmounts(chain, accts, refreshed, i);
    assert refreshed + accts[i..] == refreshed;
    total := Ok(sum);
  }

  /** `getAmountByAccountType(type)`, given the listing `getAll(type)` gives
      (`None` for `null`): the sum of the live balances of the bound
      accounts, unbound ones skipped, each summed account's cached amount
      overwritten on the way; zero for a `null` or empty listing. Only
      balance queries are issued, and the first failure propagates with the
      accounts before it already refreshed and nothing but amounts
      changed. */
  method GetAmountByAccountType(chain: Ledger, listing: Option<seq<Account>>)
    returns (total: Result<real, Exc>, refreshed: seq<Account>, calls: seq<Call>)
    ensures listing.None? ==> total == Ok(0.0) && refreshed == [] && calls == []
    ensures listing.Some? ==> total == LiveSum(chain, listing.value) && |refreshed| == |listing.value|
    ensures listing.Some? ==> forall i :: 0 <= i < |refreshed| ==>
      refreshed[i] == listing.value[i].(amount := refreshed[i].amount)
    ensures listing.Some? && total.Ok? ==>
      (forall i :: 0 <= i < |refreshed| ==> refreshed[i] == Refreshed(chain, listing.value[i]))
      && total.value == CachedSum(refreshed)
    ensures forall c :: c in calls ==> c.fn == GetMoney
  {
    if listing.None? {
      return Ok(0.0), [], [];
    }
    total, refreshed, calls := SumLive(chain, listing.value);
  }
}

=== FILE: entities.dfy ===
/** The persistent records of the coin server: internal accounts
    (`Account`), the blockchain accounts lent to them (`ErisAccount`) and the
    audit records of ledger operations (`Transaction`). */
module Entities {
  import opened Wrappers
  import opened Strings

  // ---------------------------------------------------------------------
  // Blockchain accounts
  // ---------------------------------------------------------------------

  datatype ErisAccountType = Root | Participant

  /** A blockchain account of the pool. `owner` is the `ldapId` of the
      internal account holding it (the JPA back-link); `None` means free. */
  datatype ErisAccount = ErisAccount(
    address: string,
    pubKey: string,
    privKey: string,
    kind: Option<ErisAccountType>,
    owner: Option<string>)

  /** Equality of two pool entries as provisioning data: address, keys and
      type, whatever account holds them. */
  predicate SameDescriptor(a: ErisAccount, b: ErisAccount) {
    a.address == b.address && a.pubKey == b.pubKey && a.privKey == b.privKey && a.kind == b.kind
  }

  // ---------------------------------------------------------------------
  // Internal accounts
  // ---------------------------------------------------------------------

  datatype AccountType = Regular | Merchant

  /** An internal account, keyed by `ldapId`. `amount` is the cached balance,
      which may lag the chain; `erisAccount` the bound blockchain account. */
  datatype Account = Account(
    ldapId: string,
    amount: Option<real>,
    fullName: Option<string>,
    image: Option<string>,
    accountType: Option<AccountType>,
    erisAccount: Option<ErisAccount>)

  /** `new Account(ldapId, amount)`. */
  function NewAccount(ldapId: string, amount: real): (a: Account)
    ensures a.ldapId == ldapId && a.amount == Some(amount)
    ensures a.fullName.None? && a.image.None? && a.accountType.None? && a.erisAccount.None?
  {
    Account(ldapId, Some(amount), None, None, None, None)
  }

  /** `getName()`: the first piece of `fullName.split("\\s")`, or "". */
  function Name(a: Account): (n: string)
    ensures a.fullName.None? ==> n == ""
    ensures a.fullName.Some? ==> n == a.fullName.value[..FirstWs(a.fullName.value)]
    ensures forall i :: 0 <= i < |n| ==> !IsWhitespace(n[i])
  {
    match a.fullName
    case None => ""
    case Some(s) =>
      SplitAllHead(s);
      var parts := JavaSplit(s);
      if |parts| > 0 then parts[0] else ""
  }

  /** The text between the first and the second whitespace character of `s`
      (up to the end when there is no second), or "" when `s` has none. */
  function SecondWord(s: string): string {
    var i := FirstWs(s);
    if i == |s| then "" else s[i + 1..][..FirstWs(s[i + 1..])]
  }

  /** `getSurname()`: the second piece of `fullName.split("\\s")`, or "". */
  function Surname(a: Account): (n: string)
    ensures a.fullName.None? ==> n == ""
    ensures a.fullName.Some? ==> n == SecondWord(a.fullName.value)
    ensures forall i :: 0 <= i < |n| ==> !IsWhitespace(n[i])
  {
    match a.fullName
    case None => ""
    case Some(s) =>
      SplitAllHead(s);
      var parts := JavaSplit(s);
      if |parts| > 1 then parts[1] else ""
  }

  /** `equals`: two accounts are the same account when their `ldapId`s are. */
  predicate AccountEquals(a: Account, b: Account) {
    a.ldapId == b.ldapId
  }

  /** `hashCode()`: the hash of the `ldapId`. */
  function HashCode(a: Account): int {
    JavaHash(a.ldapId)
  }

  /** Equality ignores everything but the identifier: amount, name, image,
      type and binding may all differ. */
  lemma EqualsIgnoresState(a: Account, amount: Option<real>, fullName: Option<string>,
                           image: Option<string>, kind: Option<AccountType>, eris: Option<ErisAccount>)
    ensures AccountEquals(a, Account(a.ldapId, amount, fullName, image, kind, eris))
  {
  }

  /** `equals` is an equivalence and `hashCode` agrees with it. */
  lemma EqualsIsEquivalence(a: Account, b: Account, c: Account)
    ensures AccountEquals(a, a)
    ensures AccountEquals(a, b) ==> AccountEquals(b, a)
    ensures AccountEquals(a, b) && AccountEquals(b, c) ==> AccountEquals(a, c)
    ensures AccountEquals(a, b) ==> HashCode(a) == HashCode(b)
  {
  }

  /** Leading whitespace gives an empty first name and makes the next word
      the surname. */
  lemma LeadingSpaceExample()
    ensures Name(NewAccount("x", 0.0).(fullName := Some(" John"))) == ""
    ensures Surname(NewAccount("x", 0.0).(fullName := Some(" John"))) == "John"
  {
    var s := " John";
    assert FirstWs(s) == 0;
    assert s[1..] == "John";
    assert FirstWs("John") == 4 by {
      assert FirstWs("John"[1..][1..][1..][1..]) == 0;
    }
  }

  /** A trailing separator leaves an empty surname, and so do two
      separators in a row. */
  lemma TrailingSpaceExample()
    ensures Surname(NewAccount("x", 0.0).(fullName := Some("John "))) == ""
    ensures Surname(NewAccount("x", 0.0).(fullName := Some("John  Smith"))) == ""
  {
    assert FirstWs("John ") == 4 by {
      assert FirstWs("John "[1..][1..][1..][1..]) == 0;
    }
    assert "John "[5..] == "";
    assert FirstWs("John  Smith") == 4 by {
      assert FirstWs("John  Smith"[1..][1..][1..][1..]) == 0;
    }
    assert "John  Smith"[5..] == " Smith";
    assert FirstWs(" Smith") == 0;
  }

  // ---------------------------------------------------------------------
  // Audit records
  // ---------------------------------------------------------------------

  datatype TransactionStatus = Success | Failed

  /** An audit record; every field is nullable as in the entity. `created`
      is the timestamp, an opaque clock reading. */
  datatype Transaction = Transaction(
    txId: Option<string>,
    account: Option<Account>,
    destination: Option<Account>,
    amount: Option<real>,
    remain: Option<real>,
    comment: Option<string>,
    status: Option<TransactionStatus>,
    error: Option<string>,
    created: Option<int>)

  /** `new Transaction()`: every field null. */
  const EmptyTransaction: Transaction :=
    Transaction(None, None, None, None, None, None, None, None, None)
}

=== FILE: errors.dfy ===
/** The exceptions the coin server's core throws or lets through. */
module Errors {
  import opened Wrappers

  datatype Exc =
    /** `IllegalArgumentException`, from the negative-amount check. */
    | IllegalArgument(msg: string)
    /** `NotEnoughAmountInAccountException()`, raised without a message. */
    | NotEnoughAmountInAccount
    /** `NotEnoughAmountInTreasuryException(msg)`, from batch fills. */
    | NotEnoughAmountInTreasury(msg: string)
    /** `ErisProcessingException(msg[, cause])`: every chain-side failure. */
    | ErisProcessing(msg: string, cause: Option<Exc>)
    /** `AccountNotFoundException(ldapId)`: the directory has no such user. */
    | AccountNotFound(ldapId: string)
    /** `ErisAccountNotFoundException(name)`: the account pool is exhausted. */
    | ErisAccountNotFound(name: string)
    /** `CouldNotReadFileException(msg)`: a batch upload could not be read. */
    | CouldNotReadFile(msg: string)
    /** Hex decoding of a cheque hash failed (`DecoderException`). */
    | Decoder
    /** A dereferenced `null` (`NullPointerException`). */
    | NullPointer
    /** `List.get(0)` on an empty list. */
    | IndexOutOfBounds
    /** A chain return value of an unexpected Java type. */
    | ClassCast

  /** `getLocalizedMessage()` of the exception: `null` for the exceptions
      built without a message. The exception classes themselves are not part
      of this model; their message is taken to be the constructor argument. */
  function Message(e: Exc): Option<string> {
    match e
    case IllegalArgument(m) => Some(m)
    case NotEnoughAmountInAccount => None
    case NotEnoughAmountInTreasury(m) => Some(m)
    case ErisProcessing(m, _) => Some(m)
    case AccountNotFound(id) => Some(id)
    case ErisAccountNotFound(n) => Some(n)
    case CouldNotReadFile(m) => Some(m)
    case Decoder => None
    case NullPointer => None
    case IndexOutOfBounds => None
    case ClassCast => None
  }
}

=== FILE: pool.dfy ===
/** The blockchain-account pool (`ErisAccountsService`): parsing the
    provisioning file, reconciling it with the persisted bindings at start-up,
    and handing out free entries. */
module Pool {
  import opened Wrappers
  import opened Errors
  import opened Strings
  import opened Entities

  /** Key fragments of the provisioning file that classify an entry
      (the regexes `.*_root_.*` and `.*_participant_.*`). */
  const ChainRoot: string := "_root_"
  const ChainParticipant: string := "_participant_"

  /** One `key -> descriptor` entry of the provisioning file, in file order. */
  datatype ProvisionEntry = ProvisionEntry(key: string, account: ErisAccount)

  // ---------------------------------------------------------------------
  // erisAccountMapping
  // ---------------------------------------------------------------------

  /** The type a key gives its descriptor: ROOT when the key matches the root
      pattern, else PARTICIPANT when it matches the participant pattern, else
      the descriptor's own type. Nothing but the type changes. */
  function Classify(key: string, e: ErisAccount): (r: ErisAccount)
    ensures r == e.(kind := r.kind)
    ensures MatchesAround(key, ChainRoot) ==> r.kind == Some(Root)
    ensures !MatchesAround(key, ChainRoot) && MatchesAround(key, ChainParticipant) ==> r.kind == Some(Participant)
    ensures !MatchesAround(key, ChainRoot) && !MatchesAround(key, ChainParticipant) ==> r.kind == e.kind
  {
    if MatchesAround(key, ChainRoot) then e.(kind := Some(Root))
    else if MatchesAround(key, ChainParticipant) then e.(kind := Some(Participant))
    else e
  }

  /** A key containing both fragments is a ROOT key. */
  lemma RootWins(key: string, e: ErisAccount)
    requires MatchesAround(key, ChainRoot) && MatchesAround(key, ChainParticipant)
    ensures Classify(key, e).kind == Some(Root)
  {
  }

  /** Every key of the map is the address of the descriptor stored under it. */
  predicate KeyedByAddress(m: map<string, ErisAccount>) {
    forall k :: k in m ==> m[k].address == k
  }

  /** The address of the `i`-th entry is not repeated later in the file. */
  predicate LastWithAddress(entries: seq<ProvisionEntry>, i: int)
    requires 0 <= i < |entries|
  {
    forall j :: i < j < |entries| ==> entries[j].account.address != entries[i].account.address
  }

  /** The addresses appearing in the provisioning entries. */
  function EntryAddrs(entries: seq<ProvisionEntry>): set<string> {
    if entries == [] then {} else EntryAddrs(entries[..|entries| - 1]) + {entries[|entries| - 1].account.address}
  }

  /** `erisAccountMapping`: the classified descriptors keyed by address. */
  function Mapping(entries: seq<ProvisionEntry>): (m: map<string, ErisAccount>)
    ensures KeyedByAddress(m)
    ensures m.Keys == EntryAddrs(entries)
  {
    if entries == [] then map[]
    else
      var last := entries[|entries| - 1];
      Mapping(entries[..|entries| - 1])[last.account.address := Classify(last.key, last.account)]
  }

  /** Every entry is in the map, classified, unless a later entry has the
      same address: then the later one replaced it. */
  lemma {:induction false} MappingLastWins(entries: seq<ProvisionEntry>, i: int)
    requires 0 <= i < |entries| && LastWithAddress(entries, i)
    ensures entries[i].account.address in Mapping(entries)
    ensures Mapping(entries)[entries[i].account.address] == Classify(entries[i].key, entries[i].account)
  {
    if i < |entries| - 1 {
      var front := entries[..|entries| - 1];
      assert LastWithAddress(front, i);
      MappingLastWins(front, i);
    }
  }

  // ---------------------------------------------------------------------
  // TreeMap order: the least key
  // ---------------------------------------------------------------------

  predicate IsLeast(k: string, keys: set<string>) {
    k in keys && forall x :: x in keys ==> LexLe(k, x)
  }

  lemma {:induction false} LeastExists(keys: set<string>)
    requires keys != {}
    ensures exists k :: IsLeast(k, keys)
    decreases |keys|
  {
    var y :| y in keys;
    if keys == {y} {
      LexLeReflexive(y);
      assert IsLeast(y, keys);
    } else {
      var rest := keys - {y};
      LeastExists(rest);
      var m :| IsLeast(m, rest);
      LexLeTotal(y, m);
      if LexLe(y, m) {
        LexLeReflexive(y);
        forall x | x in keys ensures LexLe(y, x) {
          if x != y {
            LexLeTransitive(y, m, x);
          }
        }
        assert IsLeast(y, keys);
      } else {
        assert IsLeast(m, keys);
      }
    }
  }

  lemma LeastUnique(a: string, b: string, keys: set<string>)
    requires IsLeast(a, keys) && IsLeast(b, keys)
    ensures a == b
  {
    LexLeAntisymmetric(a, b);
  }

  lemma LeastUniqueAll(keys: set<string>)
    ensures forall a, b :: IsLeast(a, keys) && IsLeast(b, keys) ==> a == b
  {
    forall a, b | IsLeast(a, keys) && IsLeast(b, keys) ensures a == b {
      LeastUnique(a, b, keys);
    }
  }

  /** The first key of a `TreeMap<String, _>` (`pollFirstEntry`). */
  function MinKey(keys: set<string>): (k: string)
    requires keys != {}
    ensures IsLeast(k, keys)
  {
    LeastExists(keys);
    LeastUniqueAll(keys);
    var k :| IsLeast(k, keys);
    k
  }

  /** The keys in `TreeMap` iteration order. */
  function SortedKeys(keys: set<string>): (r: seq<string>)
    ensures |r| == |keys|
    ensures forall i :: 0 <= i < |r| ==> r[i] in keys
    ensures forall x :: x in keys ==> x in r
    ensures forall i, j :: 0 <= i < j < |r| ==> LexLe(r[i], r[j]) && r[i] != r[j]
    decreases |keys|
  {
    if keys == {} then []
    else
      var k := MinKey(keys);
      var rest := SortedKeys(keys - {k});
      SortedKeysStep(k, keys, rest);
      [k] + rest
  }

  /** Putting the least key in front of the sorted other keys sorts them all. */
  lemma SortedKeysStep(k: string, keys: set<string>, rest: seq<string>)
    requires IsLeast(k, keys)
    requires |rest| == |keys - {k}|
    requires forall i :: 0 <= i < |rest| ==> rest[i] in keys - {k}
    requires forall x :: x in keys - {k} ==> x in rest
    requires forall i, j :: 0 <= i < j < |rest| ==> LexLe(rest[i], rest[j]) && rest[i] != rest[j]
    ensures |[k] + rest| == |keys|
    ensures forall i :: 0 <= i < |[k] + rest| ==> ([k] + rest)[i] in keys
    ensures forall x :: x in keys ==> x in [k] + rest
    ensures forall i, j :: 0 <= i < j < |[k] + rest| ==> LexLe(([k] + rest)[i], ([k] + rest)[j]) && ([k] + rest)[i] != ([k] + rest)[j]
  {
    var r := [k] + rest;
    forall i | 0 < i < |r| ensures r[i] == rest[i - 1] {
    }
    forall x | x in keys ensures x in r {
      if x != k {
        assert x in rest;
      }
    }
    forall i, j | 0 <= i < j < |r| ensures LexLe(r[i], r[j]) && r[i] != r[j] {
      if i == 0 {
        assert r[j] == rest[j - 1] && r[j] in keys - {k};
      } else {
        assert r[i] == rest[i - 1] && r[j] == rest[j - 1];
      }
    }
  }

  /** `TreeMap.values()`: the descriptors in address order, each once. */
  function SortedValues(m: map<string, ErisAccount>): (r: seq<ErisAccount>)
    requires KeyedByAddress(m)
    ensures |r| == |m|
    ensures forall i :: 0 <= i < |r| ==> r[i].address in m && r[i] == m[r[i].address]
    ensures forall k :: k in m ==> m[k] in r
    ensures forall i, j :: 0 <= i < j < |r| ==> LexLe(r[i].address, r[j].address) && r[i].address != r[j].address
  {
    var ks := SortedKeys(m.Keys);
    var r := seq(|ks|, i requires 0 <= i < |ks| => m[ks[i]]);
    SortedValuesFacts(m, ks, r);
    r
  }

  lemma SortedValuesFacts(m: map<string, ErisAccount>, ks: seq<string>, r: seq<ErisAccount>)
    requires KeyedByAddress(m)
    requires ks == SortedKeys(m.Keys)
    requires |r| == |ks| && forall i :: 0 <= i < |ks| ==> r[i] == m[ks[i]]
    ensures forall i :: 0 <= i < |r| ==> r[i].address in m && r[i] == m[r[i].address]
    ensures forall k :: k in m ==> m[k] in r
    ensures forall i, j :: 0 <= i < j < |r| ==> LexLe(r[i].address, r[j].address) && r[i].address != r[j].address
  {
    forall i | 0 <= i < |r| ensures r[i].address == ks[i] {
      assert ks[i] in m;
    }
    forall k | k in m ensures m[k] in r {
      var i :| 0 <= i < |ks| && ks[i] == k;
      assert r[i] == m[k];
    }
    forall i, j | 0 <= i < j < |r| ensures LexLe(r[i].address, r[j].address) && r[i].address != r[j].address {
      assert LexLe(ks[i], ks[j]) && ks[i] != ks[j];
    }
  }

  // ---------------------------------------------------------------------
  // The pool repository, getFree and bindFreeAccount
  // ---------------------------------------------------------------------

  /** No address occurs twice in the list. */
  predicate DistinctAddrs(es: seq<ErisAccount>) {
    forall i, j :: 0 <= i < j < |es| ==> es[i].address != es[j].address
  }

  /** `repository.save(e)`: replaces the entry with the same address, or
      appends. */
  function SaveEntry(repo: seq<ErisAccount>, e: ErisAccount): (r: seq<ErisAccount>)
    ensures e in r
    ensures forall x :: x in r ==> x == e || x in repo
    ensures forall x :: x in repo && x.address != e.address ==> x in r
  {
    if repo == [] then [e]
    else if repo[0].address == e.address then [e] + repo[1..]
    else [repo[0]] + SaveEntry(repo[1..], e)
  }

  /** Saving into a repository with no repeated address keeps it so, and
      the saved entry is then the only one at its address. */
  lemma {:induction false} SaveEntryDistinct(repo: seq<ErisAccount>, e: ErisAccount)
    requires DistinctAddrs(repo)
    ensures DistinctAddrs(SaveEntry(repo, e))
    ensures forall x :: x in SaveEntry(repo, e) && x.address == e.address ==> x == e
    decreases |repo|
  {
    if repo == [] {
      assert SaveEntry(repo, e) == [e];
    } else if repo[0].address != e.address {
      SaveEntryDistinct(repo[1..], e);
      SaveEntryBehind(repo, e);
    } else {
      SaveEntryInFront(repo, e);
    }
  }

  /** The step of `SaveEntryDistinct` when the head keeps its place. */
  lemma SaveEntryBehind(repo: seq<ErisAccount>, e: ErisAccount)
    requires DistinctAddrs(repo) && repo != [] && repo[0].address != e.address
    requires DistinctAddrs(SaveEntry(repo[1..], e))
    requires forall x :: x in SaveEntry(repo[1..], e) && x.address == e.address ==> x == e
    ensures DistinctAddrs(SaveEntry(repo, e))
    ensures forall x :: x in SaveEntry(repo, e) && x.address == e.address ==> x == e
  {
    var t := SaveEntry(repo[1..], e);
    var r := SaveEntry(repo, e);
    assert r == [repo[0]] + t;
    forall x | x in repo[1..] ensures x.address != repo[0].address {
      var k :| 0 <= k < |repo[1..]| && repo[1..][k] == x;
      assert repo[k + 1] == x;
    }
    forall j | 0 <= j < |t| ensures t[j].address != repo[0].address {
      SaveEntryFrom(repo[1..], e, t[j]);
    }
    ConsDistinct(repo[0], t);
    forall x | x in r && x.address == e.address ensures x == e {
      assert x in t;
    }
  }

  /** Putting an entry in front of a list that does not hold its address
      keeps the addresses distinct. */
  lemma ConsDistinct(h: ErisAccount, t: seq<ErisAccount>)
    requires DistinctAddrs(t)
    requires forall j :: 0 <= j < |t| ==> t[j].address != h.address
    ensures DistinctAddrs([h] + t)
  {
    var r := [h] + t;
    forall i, j | 0 <= i < j < |r| ensures r[i].address != r[j].address {
      assert r[j] == t[j - 1];
      if i > 0 {
        assert r[i] == t[i - 1];
      }
    }
  }

  /** The step of `SaveEntryDistinct` when `e` replaces the head. */
  lemma SaveEntryInFront(repo: seq<ErisAccount>, e: ErisAccount)
    requires DistinctAddrs(repo) && repo != [] && repo[0].address == e.address
    ensures DistinctAddrs(SaveEntry(repo, e))
    ensures forall x :: x in SaveEntry(repo, e) && x.address == e.address ==> x == e
  {
    var r := SaveEntry(repo, e);
    assert r == [e] + repo[1..];
    forall i, j | 0 <= i < j < |r| ensures r[i].address != r[j].address {
      assert r[j] == repo[j];
      if i > 0 {
        assert r[i] == repo[i];
      }
    }
    forall x | x in r && x.address == e.address ensures x == e {
      var k :| 0 <= k < |r| && r[k] == x;
    }
  }

  /** An entry of the saved repository other than `e` was already there. */
  lemma SaveEntryFrom(repo: seq<ErisAccount>, e: ErisAccount, x: ErisAccount)
    requires x in SaveEntry(repo, e)
    ensures x == e || x in repo
  {
  }

  /** Saving a list of entries, in list order. */
  function SaveAll(repo: seq<ErisAccount>, es: seq<ErisAccount>): seq<ErisAccount>
    decreases |es|
  {
    if es == [] then repo else SaveAll(SaveEntry(repo, es[0]), es[1..])
  }

  /** `repository.delete(e)`: removes the entry with that address. */
  function DeleteEntry(repo: seq<ErisAccount>, e: ErisAccount): (r: seq<ErisAccount>)
    ensures forall x :: x in r <==> x in repo && x.address != e.address
  {
    if repo == [] then []
    else if repo[0].address == e.address then DeleteEntry(repo[1..], e)
    else [repo[0]] + DeleteEntry(repo[1..], e)
  }

  function DeleteAll(repo: seq<ErisAccount>, es: seq<ErisAccount>): seq<ErisAccount>
    decreases |es|
  {
    if es == [] then repo else DeleteAll(DeleteEntry(repo, es[0]), es[1..])
  }

  /** No entry of `es` sits at `address`. */
  predicate NoneAt(es: seq<ErisAccount>, address: string) {
    forall i :: 0 <= i < |es| ==> es[i].address != address
  }

  /** Deleting a list of entries removes exactly the entries at their
      addresses. */
  lemma {:induction false} DeleteAllFacts(repo: seq<ErisAccount>, es: seq<ErisAccount>)
    ensures forall x :: x in DeleteAll(repo, es) <==> x in repo && NoneAt(es, x.address)
    decreases |es|
  {
    if es != [] {
      DeleteAllFacts(DeleteEntry(repo, es[0]), es[1..]);
      forall x: ErisAccount ensures NoneAt(es, x.address) <==> es[0].address != x.address && NoneAt(es[1..], x.address) {
        if es[0].address != x.address && NoneAt(es[1..], x.address) {
          forall i | 0 < i < |es| ensures es[i].address != x.address {
            assert es[i] == es[1..][i - 1];
          }
        }
      }
    }
  }

  /** Everything a run of saves leaves was saved or was already there. */
  lemma {:induction false} SaveAllFrom(repo: seq<ErisAccount>, es: seq<ErisAccount>)
    ensures forall x :: x in SaveAll(repo, es) ==> x in es || x in repo
    decreases |es|
  {
    if es != [] {
      SaveAllFrom(SaveEntry(repo, es[0]), es[1..]);
      forall x | x in SaveAll(repo, es) ensures x in es || x in repo {
        if x in es[1..] {
          var k :| 0 <= k < |es[1..]| && es[1..][k] == x;
          assert es[k + 1] == x;
        }
      }
    }
  }

  /** An entry whose address no save touches survives the saves. */
  lemma {:induction false} SaveAllKeeps(repo: seq<ErisAccount>, es: seq<ErisAccount>, x: ErisAccount)
    requires x in repo && NoneAt(es, x.address)
    ensures x in SaveAll(repo, es)
    decreases |es|
  {
    if es != [] {
      assert es[0].address != x.address;
      forall i | 0 <= i < |es[1..]| ensures es[1..][i].address != x.address {
        assert es[1..][i] == es[i + 1];
      }
      SaveAllKeeps(SaveEntry(repo, es[0]), es[1..], x);
    }
  }

  /** Saving entries with distinct addresses leaves every one of them in
      the repository. */
  lemma {:induction false} SaveAllHolds(repo: seq<ErisAccount>, es: seq<ErisAccount>)
    requires DistinctAddrs(es)
    ensures forall e :: e in es ==> e in SaveAll(repo, es)
    decreases |es|
  {
    if es != [] {
      var rest := es[1..];
      assert DistinctAddrs(rest) by {
        forall i, j | 0 <= i < j < |rest| ensures rest[i].address != rest[j].address {
          assert rest[i] == es[i + 1] && rest[j] == es[j + 1];
        }
      }
      SaveAllHolds(SaveEntry(repo, es[0]), rest);
      forall i | 0 <= i < |rest| ensures rest[i].address != es[0].address {
        assert rest[i] == es[i + 1];
      }
      SaveAllKeeps(SaveEntry(repo, es[0]), rest, es[0]);
      forall e | e in es ensures e in SaveAll(repo, es) {
        if e != es[0] {
          var k :| 0 <= k < |es| && es[k] == e;
          assert k > 0 && rest[k - 1] == e;
        }
      }
    }
  }

  /** `repository.getFree()`: the entries held by no account, in repository
      order. The repository query is not part of this model; this is the
      reading its name and its use give. */
  function FreeEntries(repo: seq<ErisAccount>): (r: seq<ErisAccount>)
    ensures forall x :: x in r <==> x in repo && x.owner.None?
  {
    if repo == [] then []
    else if repo[0].owner.None? then [repo[0]] + FreeEntries(repo[1..])
    else FreeEntries(repo[1..])
  }

  /** The head of `getFree()` is the first entry of the repository held by
      no account. */
  lemma {:induction false} FreeEntriesHead(repo: seq<ErisAccount>)
    ensures FreeEntries(repo) == [] <==> forall i :: 0 <= i < |repo| ==> repo[i].owner.Some?
    ensures FreeEntries(repo) != [] ==> exists i :: (0 <= i < |repo| && repo[i] == FreeEntries(repo)[0]
      && repo[i].owner.None? && forall j :: 0 <= j < i ==> repo[j].owner.Some?)
  {
    if repo != [] && repo[0].owner.Some? {
      FreeEntriesHead(repo[1..]);
      if FreeEntries(repo[1..]) != [] {
        var i :| 0 <= i < |repo[1..]| && repo[1..][i] == FreeEntries(repo[1..])[0]
          && repo[1..][i].owner.None? && forall j :: 0 <= j < i ==> repo[1..][j].owner.Some?;
        assert repo[i + 1] == FreeEntries(repo)[0];
        assert forall j :: 0 <= j < i + 1 ==> repo[j].owner.Some?;
      }
    } else if repo != [] {
      assert repo[0] == FreeEntries(repo)[0];
    }
  }

  /** `bindFreeAccount`: the first element of `getFree()`, or `null` when
      there is none. It does not mark the entry as bound: the repository is
      not changed. */
  function BindFreeAccount(repo: seq<ErisAccount>): (r: Option<ErisAccount>)
    ensures r.None? <==> forall i :: 0 <= i < |repo| ==> repo[i].owner.Some?
    ensures r.Some? ==> exists i :: (0 <= i < |repo| && repo[i] == r.value && r.value.owner.None?
      && forall j :: 0 <= j < i ==> repo[j].owner.Some?)
  {
    FreeEntriesHead(repo);
    var free := FreeEntries(repo);
    if free == [] then None else Some(free[0])
  }

}

=== FILE: reconcile.dfy ===
/** The start-up reconciliation of the account pool against the persisted
    bindings (`shareAccounts` and `init` of `ErisAccountsService`). */
module Reconcile {
  import opened Wrappers
  import opened Errors
  import opened Strings
  import opened Entities
  import opened Pool

  // ---------------------------------------------------------------------
  // shareAccounts
  // ---------------------------------------------------------------------

  /** The addresses of a list of pool entries. */
  function Addrs(es: seq<ErisAccount>): set<string> {
    set i | 0 <= i < |es| :: es[i].address
  }

  /** The addresses the given accounts are bound to. */
  function BoundAddrs(accts: seq<Account>): set<string> {
    if accts == [] then {}
    else
      var last := accts[|accts| - 1];
      BoundAddrs(accts[..|accts| - 1]) + (if last.erisAccount.Some? then {last.erisAccount.value.address} else {})
  }

  /** The reconciliation in progress: the `TreeMap` being consumed, the
      accounts as they are held in memory, the records handed to
      `repository.delete`, and `newAssignedErisAccounts`. */
  datatype Shared = Shared(
    working: map<string, ErisAccount>,
    accounts: seq<Account>,
    deleted: seq<ErisAccount>,
    newAssigned: seq<ErisAccount>)

  /** What the first pass does with one account. */
  function FirstPassStep(st: Shared, a: Account): Shared {
    match a.erisAccount
    case None => st.(accounts := st.accounts + [a])
    case Some(bound) =>
      if bound.address !in st.working then
        // stale: delete the record and clear the binding
        st.(accounts := st.accounts + [a.(erisAccount := None)], deleted := st.deleted + [bound])
      else if SameDescriptor(st.working[bound.address], bound) then
        // unchanged: accounted for
        st.(working := st.working - {bound.address}, accounts := st.accounts + [a])
      else
        // changed: re-bind the refreshed descriptor to the same account
        st.(working := st.working - {bound.address}, accounts := st.accounts + [a],
            newAssigned := st.newAssigned + [st.working[bound.address].(owner := Some(a.ldapId))])
  }

  /** The first pass over `accts`, in list order. */
  function FirstPass(parsed: map<string, ErisAccount>, accts: seq<Account>): Shared {
    if accts == [] then Shared(parsed, [], [], [])
    else FirstPassStep(FirstPass(parsed, accts[..|accts| - 1]), accts[|accts| - 1])
  }

  /** How many of the accounts hold no binding. */
  function CountUnbound(accts: seq<Account>): (n: nat)
    ensures n <= |accts|
  {
    if accts == [] then 0
    else (if accts[0].erisAccount.None? then 1 else 0) + CountUnbound(accts[1..])
  }

  /** The second pass: every account still without a binding takes the entry
      with the least remaining address. `pollFirstEntry()` on an empty map
      returns `null`, so running out of entries is a `NullPointerException`. */
  function SecondPass(working: map<string, ErisAccount>, newAssigned: seq<ErisAccount>, accts: seq<Account>):
    (r: Result<(map<string, ErisAccount>, seq<ErisAccount>), Exc>)
    decreases |accts|
  {
    if accts == [] then Ok((working, newAssigned))
    else if accts[0].erisAccount.Some? then SecondPass(working, newAssigned, accts[1..])
    else if working == map[] then Err(NullPointer)
    else
      var k := MinKey(working.Keys);
      SecondPass(working - {k}, newAssigned + [working[k].(owner := Some(accts[0].ldapId))], accts[1..])
  }


  /** `a` is bound to the pool entry at address `x`. */
  predicate BoundTo(a: Account, x: string) {
    a.erisAccount.Some? && a.erisAccount.value.address == x
  }

  lemma {:induction false} BoundAddrsMember(accts: seq<Account>, x: string)
    ensures x in BoundAddrs(accts) <==> exists j :: 0 <= j < |accts| && BoundTo(accts[j], x)
  {
    if accts != [] {
      var front := accts[..|accts| - 1];
      BoundAddrsMember(front, x);
      if exists j :: 0 <= j < |front| && BoundTo(front[j], x) {
        var j :| 0 <= j < |front| && BoundTo(front[j], x);
        assert BoundTo(accts[j], x);
      }
      if exists j :: 0 <= j < |accts| && BoundTo(accts[j], x) {
        var j :| 0 <= j < |accts| && BoundTo(accts[j], x);
        if j < |front| {
          assert BoundTo(front[j], x);
        }
      }
    }
  }

  // ---------------------------------------------------------------------
  // The partition invariant
  // ---------------------------------------------------------------------

  /** `e` is a parsed descriptor, taken out of the working map and handed to
      an account. */
  predicate Drawn(parsed: map<string, ErisAccount>, working: map<string, ErisAccount>, e: ErisAccount) {
    e.address in parsed && e.address !in working && e == parsed[e.address].(owner := e.owner) && e.owner.Some?
  }

  /** The remaining map is a part of the parsed one; the newly assigned list
      holds parsed descriptors outside it, no address twice. */
  predicate Partition(parsed: map<string, ErisAccount>, working: map<string, ErisAccount>, newAssigned: seq<ErisAccount>) {
    && (forall k :: k in working ==> k in parsed && working[k] == parsed[k])
    && (forall i :: 0 <= i < |newAssigned| ==> Drawn(parsed, working, newAssigned[i]))
    && DistinctAddrs(newAssigned)
  }

  /** Taking the entry at `k` out of the working map and handing it to
      `owner` keeps the partition. */
  lemma DrawKeepsPartition(parsed: map<string, ErisAccount>, working: map<string, ErisAccount>,
                           newAssigned: seq<ErisAccount>, k: string, owner: string)
    requires KeyedByAddress(parsed)
    requires Partition(parsed, working, newAssigned) && k in working
    ensures Partition(parsed, working - {k}, newAssigned + [working[k].(owner := Some(owner))])
  {
    var e := working[k].(owner := Some(owner));
    var na := newAssigned + [e];
    forall i | 0 <= i < |na| ensures Drawn(parsed, working - {k}, na[i]) {
      if i < |newAssigned| {
        assert na[i] == newAssigned[i];
      }
    }
  }

  lemma FirstPassStepFacts(parsed: map<string, ErisAccount>, st: Shared, a: Account)
    requires KeyedByAddress(parsed)
    requires Partition(parsed, st.working, st.newAssigned)
    ensures var st' := FirstPassStep(st, a);
      && Partition(parsed, st'.working, st'.newAssigned)
      && st'.working == st.working - (if a.erisAccount.Some? then {a.erisAccount.value.address} else {})
      && |st'.accounts| == |st.accounts| + 1 && st'.accounts[..|st.accounts|] == st.accounts
      && st.deleted <= st'.deleted && st.newAssigned <= st'.newAssigned
  {
    if a.erisAccount.Some? {
      var x := a.erisAccount.value.address;
      if x in st.working && !SameDescriptor(st.working[x], a.erisAccount.value) {
        DrawKeepsPartition(parsed, st.working, st.newAssigned, x, a.ldapId);
      }
    }
  }

  /** After the first pass the working map is the parsed map without every
      address some account was bound to, and the partition holds. */
  lemma {:induction false} FirstPassFacts(parsed: map<string, ErisAccount>, accts: seq<Account>)
    requires KeyedByAddress(parsed)
    ensures var st := FirstPass(parsed, accts);
      && |st.accounts| == |accts|
      && st.working == parsed - BoundAddrs(accts)
      && Partition(parsed, st.working, st.newAssigned)
  {
    if accts != [] {
      var front := accts[..|accts| - 1];
      FirstPassFacts(parsed, front);
      FirstPassStepFacts(parsed, FirstPass(parsed, front), accts[|accts| - 1]);
    }
  }

  /** The first pass over a prefix of the accounts is the beginning of the
      first pass over all of them. */
  lemma {:induction false} FirstPassPrefix(parsed: map<string, ErisAccount>, accts: seq<Account>, i: nat)
    requires KeyedByAddress(parsed)
    requires i <= |accts|
    ensures var before := FirstPass(parsed, accts[..i]);
      var after := FirstPass(parsed, accts);
      && |before.accounts| == i && |after.accounts| == |accts|
      && before.accounts == after.accounts[..i]
      && before.deleted <= after.deleted
      && before.newAssigned <= after.newAssigned
  {
    FirstPassFacts(parsed, accts[..i]);
    FirstPassFacts(parsed, accts);
    if i < |accts| {
      var front := accts[..|accts| - 1];
      assert accts[..i] == front[..i];
      FirstPassPrefix(parsed, front, i);
      FirstPassFacts(parsed, front);
      FirstPassStepFacts(parsed, FirstPass(parsed, front), accts[|accts| - 1]);
    } else {
      assert accts[..i] == accts;
    }
  }

  /** The `i`-th account after the first pass is what the step did with it,
      given the state left by the accounts before it. */
  lemma FirstPassAt(parsed: map<string, ErisAccount>, accts: seq<Account>, i: nat)
    requires KeyedByAddress(parsed)
    requires i < |accts|
    ensures var step := FirstPassStep(FirstPass(parsed, accts[..i]), accts[i]);
      var after := FirstPass(parsed, accts);
      && |step.accounts| == i + 1 && |after.accounts| == |accts|
      && after.accounts[i] == step.accounts[i]
      && step.deleted <= after.deleted
      && step.newAssigned <= after.newAssigned
  {
    assert accts[..i + 1][..i] == accts[..i];
    assert FirstPass(parsed, accts[..i + 1]) == FirstPassStep(FirstPass(parsed, accts[..i]), accts[i]);
    FirstPassPrefix(parsed, accts, i + 1);
    FirstPassFacts(parsed, accts[..i]);
  }

  // ---------------------------------------------------------------------
  // The second pass
  // ---------------------------------------------------------------------

  /** The owners the second pass hands entries to, in order. */
  function UnboundOwners(accts: seq<Account>): seq<Option<string>> {
    if accts == [] then []
    else (if accts[0].erisAccount.None? then [Some(accts[0].ldapId)] else []) + UnboundOwners(accts[1..])
  }

  function Owners(es: seq<ErisAccount>): seq<Option<string>> {
    seq(|es|, i requires 0 <= i < |es| => es[i].owner)
  }

  lemma DrawSize(working: map<string, ErisAccount>, k: string)
    requires k in working
    ensures (working - {k}).Keys == working.Keys - {k}
    ensures |working - {k}| == |working| - 1
  {
    assert (working - {k}).Keys == working.Keys - {k};
  }

  /** The second pass succeeds exactly when there are at least as many
      remaining entries as unbound accounts; otherwise `pollFirstEntry`
      yields `null` and dereferencing it throws. */
  lemma {:induction false} SecondPassOutcome(working: map<string, ErisAccount>, newAssigned: seq<ErisAccount>,
                                             accts: seq<Account>)
    ensures var r := SecondPass(working, newAssigned, accts);
      && (r.Ok? <==> CountUnbound(accts) <= |working|)
      && (r.Err? ==> r.error == NullPointer)
      && (r.Ok? ==> |r.value.0| == |working| - CountUnbound(accts))
    decreases |accts|
  {
    if accts == [] {
    } else if accts[0].erisAccount.Some? {
      SecondPassOutcome(working, newAssigned, accts[1..]);
    } else if working == map[] {
    } else {
      var k := MinKey(working.Keys);
      DrawSize(working, k);
      SecondPassOutcome(working - {k}, newAssigned + [working[k].(owner := Some(accts[0].ldapId))], accts[1..]);
    }
  }

  /** The second pass appends one entry per unbound account, in account
      order, each taken out of the working map, and keeps the partition. */
  lemma {:induction false} SecondPassShape(parsed: map<string, ErisAccount>, working: map<string, ErisAccount>,
                                           newAssigned: seq<ErisAccount>, accts: seq<Account>)
    requires KeyedByAddress(parsed)
    requires Partition(parsed, working, newAssigned)
    ensures var r := SecondPass(working, newAssigned, accts);
      r.Ok? ==>
        var (w, na) := r.value;
        && Partition(parsed, w, na)
        && w.Keys <= working.Keys
        && |na| == |newAssigned| + CountUnbound(accts)
        && na[..|newAssigned|] == newAssigned
        && Owners(na[|newAssigned|..]) == UnboundOwners(accts)
        && (forall i :: |newAssigned| <= i < |na| ==> na[i].address in working)
    decreases |accts|
  {
    if accts == [] {
      assert newAssigned[|newAssigned|..] == [];
    } else if accts[0].erisAccount.Some? {
      SecondPassShape(parsed, working, newAssigned, accts[1..]);
    } else if working == map[] {
    } else {
      var k := MinKey(working.Keys);
      var e := working[k].(owner := Some(accts[0].ldapId));
      var w1 := working - {k};
      var na1 := newAssigned + [e];
      DrawKeepsPartition(parsed, working, newAssigned, k, accts[0].ldapId);
      SecondPassShape(parsed, w1, na1, accts[1..]);
      var r := SecondPass(w1, na1, accts[1..]);
      if r.Ok? {
        var (w, na) := r.value;
        assert na[..|na1|] == na1;
        assert na[..|newAssigned|] == newAssigned;
        assert na[|newAssigned|..|na1|] == [e];
        assert na[|newAssigned|..] == na[|newAssigned|..|na1|] + na[|na1|..];
        assert Owners(na[|newAssigned|..]) == [e.owner] + Owners(na[|na1|..]);
        forall i | |newAssigned| <= i < |na| ensures na[i].address in working {
          if i > |newAssigned| {
            assert na[i].address in w1;
          }
        }
      }
    }
  }

  /** Every entry of `na` from index `from` on has an address below every
      key of `w`. */
  predicate BelowAll(na: seq<ErisAccount>, from: nat, w: map<string, ErisAccount>) {
    forall i, k :: from <= i < |na| && k in w ==> LexLe(na[i].address, k)
  }

  /** The entries of `na` from index `from` on are in ascending address
      order. */
  predicate AscendingFrom(na: seq<ErisAccount>, from: nat) {
    forall i, j :: from <= i < j < |na| ==> LexLe(na[i].address, na[j].address)
  }

  /** Each entry of the second pass has the least address still available
      when it is taken: below every entry left over, and in ascending
      order. */
  lemma {:induction false} SecondPassLeast(parsed: map<string, ErisAccount>, working: map<string, ErisAccount>,
                                           newAssigned: seq<ErisAccount>, accts: seq<Account>)
    requires KeyedByAddress(parsed)
    requires Partition(parsed, working, newAssigned)
    ensures var r := SecondPass(working, newAssigned, accts);
      r.Ok? ==> BelowAll(r.value.1, |newAssigned|, r.value.0) && AscendingFrom(r.value.1, |newAssigned|)
    decreases |accts|
  {
    SecondPassShape(parsed, working, newAssigned, accts);
    if accts == [] {
    } else if accts[0].erisAccount.Some? {
      SecondPassLeast(parsed, working, newAssigned, accts[1..]);
    } else if working == map[] {
    } else {
      var k := MinKey(working.Keys);
      var e := working[k].(owner := Some(accts[0].ldapId));
      var w1 := working - {k};
      var na1 := newAssigned + [e];
      DrawKeepsPartition(parsed, working, newAssigned, k, accts[0].ldapId);
      SecondPassShape(parsed, w1, na1, accts[1..]);
      SecondPassLeast(parsed, w1, na1, accts[1..]);
      var r := SecondPass(w1, na1, accts[1..]);
      if r.Ok? {
        var (w, na) := r.value;
        assert na[..|na1|] == na1;
        assert na[|newAssigned|] == e;
        assert e.address == k;
        forall i, k' | |newAssigned| <= i < |na| && k' in w ensures LexLe(na[i].address, k') {
          if i == |newAssigned| {
            assert k' in working;
          }
        }
        forall i, j | |newAssigned| <= i < j < |na| ensures LexLe(na[i].address, na[j].address) {
          if i == |newAssigned| {
            assert na[j].address in w1;
          }
        }
      }
    }
  }

  // ---------------------------------------------------------------------
  // shareAccounts, account by account
  // ---------------------------------------------------------------------

  lemma BoundAddrsPrefix(accts: seq<Account>, i: nat)
    requires i <= |accts|
    ensures BoundAddrs(accts[..i]) <= BoundAddrs(accts)
  {
    forall x | x in BoundAddrs(accts[..i]) ensures x in BoundAddrs(accts) {
      BoundAddrsMember(accts[..i], x);
      var j :| 0 <= j < i && BoundTo(accts[..i][j], x);
      BoundAddrsMember(accts, x);
      assert BoundTo(accts[j], x);
    }
  }

  /** Once an address is neither in the working map nor among the assigned
      entries, the rest of the first pass does not hand it out. */
  lemma {:induction false} GoneStaysGone(parsed: map<string, ErisAccount>, accts: seq<Account>, i: nat, x: string)
    requires KeyedByAddress(parsed)
    requires i <= |accts|
    requires x !in FirstPass(parsed, accts[..i]).working
    requires x !in Addrs(FirstPass(parsed, accts[..i]).newAssigned)
    ensures x !in FirstPass(parsed, accts).working
    ensures x !in Addrs(FirstPass(parsed, accts).newAssigned)
  {
    if i == |accts| {
      assert accts[..i] == accts;
    } else {
      var front := accts[..|accts| - 1];
      assert accts[..i] == front[..i];
      GoneStaysGone(parsed, front, i, x);
      var st := FirstPass(parsed, front);
      FirstPassFacts(parsed, front);
      FirstPassStepFacts(parsed, st, accts[|accts| - 1]);
      var st' := FirstPassStep(st, accts[|accts| - 1]);
      forall t | 0 <= t < |st'.newAssigned| ensures st'.newAssigned[t].address != x {
        if t < |st.newAssigned| {
          assert st'.newAssigned[t] == st.newAssigned[t];
        } else {
          assert st'.newAssigned[t].address in st.working;
        }
      }
    }
  }

  /** A bound account whose address the provisioning file no longer lists
      loses its binding, and its record is deleted. */
  lemma StaleBindingDropped(parsed: map<string, ErisAccount>, accts: seq<Account>, i: nat)
    requires KeyedByAddress(parsed)
    requires i < |accts| && accts[i].erisAccount.Some? && accts[i].erisAccount.value.address !in parsed
    ensures ShareAccounts(parsed, accts).Ok? ==>
      var sh := ShareAccounts(parsed, accts).value;
      sh.accounts[i] == accts[i].(erisAccount := None) && accts[i].erisAccount.value in sh.deleted
  {
    var before := FirstPass(parsed, accts[..i]);
    var step := FirstPassStep(before, accts[i]);
    FirstPassAt(parsed, accts, i);
    FirstPassFacts(parsed, accts[..i]);
    var b := accts[i].erisAccount.value;
    assert b.address !in before.working;
    assert step.accounts == before.accounts + [accts[i].(erisAccount := None)];
    assert step.deleted == before.deleted + [b];
    assert b in step.deleted;
    var p := FirstPass(parsed, accts);
    assert b in p.deleted;
    var r := ShareAccounts(parsed, accts);
    if r.Ok? {
      assert r.value.accounts == p.accounts && r.value.deleted == p.deleted;
    }
  }

  /** A bound account (the first one bound to its address) whose descriptor
      is unchanged keeps it; the descriptor leaves the working map and is not
      handed to anyone. */
  lemma UnchangedBindingKept(parsed: map<string, ErisAccount>, accts: seq<Account>, i: nat)
    requires KeyedByAddress(parsed)
    requires i < |accts| && accts[i].erisAccount.Some?
    requires accts[i].erisAccount.value.address in parsed
    requires SameDescriptor(parsed[accts[i].erisAccount.value.address], accts[i].erisAccount.value)
    requires forall j :: 0 <= j < i ==> !BoundTo(accts[j], accts[i].erisAccount.value.address)
    ensures ShareAccounts(parsed, accts).Ok? ==>
      var sh := ShareAccounts(parsed, accts).value;
      var x := accts[i].erisAccount.value.address;
      sh.accounts[i] == accts[i] && x !in sh.working && x !in Addrs(sh.newAssigned)
  {
    var x := accts[i].erisAccount.value.address;
    var before := FirstPass(parsed, accts[..i]);
    FirstPassAt(parsed, accts, i);
    FirstPassFacts(parsed, accts[..i]);
    BoundAddrsMember(accts[..i], x);
    assert x in before.working;
    FirstPassStepFacts(parsed, before, accts[i]);
    var step := FirstPassStep(before, accts[i]);
    assert step.newAssigned == before.newAssigned;
    forall t | 0 <= t < |step.newAssigned| ensures step.newAssigned[t].address != x {
      assert Drawn(parsed, before.working, before.newAssigned[t]);
    }
    assert accts[..i + 1][..i] == accts[..i];
    assert FirstPass(parsed, accts[..i + 1]) == step;
    GoneStaysGone(parsed, accts, i + 1, x);
    var p := FirstPass(parsed, accts);
    FirstPassFacts(parsed, accts);
    SecondPassShape(parsed, p.working, p.newAssigned, p.accounts);
    var r := SecondPass(p.working, p.newAssigned, p.accounts);
    if r.Ok? {
      var (w, na) := r.value;
      forall t | 0 <= t < |na| ensures na[t].address != x {
        if t < |p.newAssigned| {
          assert na[t] == p.newAssigned[t];
        } else {
          assert na[t].address in p.working;
        }
      }
    }
  }

  /** A bound account (the first one bound to its address) whose descriptor
      changed is re-bound: the refreshed descriptor, pointing at the same
      account, joins the newly assigned list. */
  lemma ChangedBindingRebound(parsed: map<string, ErisAccount>, accts: seq<Account>, i: nat)
    requires KeyedByAddress(parsed)
    requires i < |accts| && accts[i].erisAccount.Some?
    requires accts[i].erisAccount.value.address in parsed
    requires !SameDescriptor(parsed[accts[i].erisAccount.value.address], accts[i].erisAccount.value)
    requires forall j :: 0 <= j < i ==> !BoundTo(accts[j], accts[i].erisAccount.value.address)
    ensures ShareAccounts(parsed, accts).Ok? ==>
      var sh := ShareAccounts(parsed, accts).value;
      var x := accts[i].erisAccount.value.address;
      sh.accounts[i] == accts[i] && x !in sh.working
      && parsed[x].(owner := Some(accts[i].ldapId)) in sh.newAssigned
  {
    var x := accts[i].erisAccount.value.address;
    var before := FirstPass(parsed, accts[..i]);
    FirstPassAt(parsed, accts, i);
    FirstPassFacts(parsed, accts[..i]);
    BoundAddrsMember(accts[..i], x);
    assert x in before.working;
    var step := FirstPassStep(before, accts[i]);
    var e := parsed[x].(owner := Some(accts[i].ldapId));
    assert e in step.newAssigned;
    var p := FirstPass(parsed, accts);
    assert e in p.newAssigned;
    FirstPassFacts(parsed, accts);
    BoundAddrsMember(accts, x);
    SecondPassShape(parsed, p.working, p.newAssigned, p.accounts);
    var r := SecondPass(p.working, p.newAssigned, p.accounts);
    if r.Ok? {
      var (w, na) := r.value;
      assert na[..|p.newAssigned|] == p.newAssigned;
      assert e in na;
    }
  }

  /** `shareAccounts`: both passes. It fails (with a `NullPointerException`)
      exactly when the accounts left unbound by the first pass outnumber the
      remaining entries. Otherwise every account keeps its place, the newly
      assigned list and the remaining map are disjoint parts of the parsed
      map with no entry handed out twice, and the accounts without a binding
      receive the least remaining addresses, in account order. */
  function ShareAccounts(parsed: map<string, ErisAccount>, accts: seq<Account>): (r: Result<Shared, Exc>)
    requires KeyedByAddress(parsed)
    ensures var p := FirstPass(parsed, accts);
      && (r.Ok? <==> CountUnbound(p.accounts) <= |parsed - BoundAddrs(accts)|)
      && (r.Err? ==> r.error == NullPointer)
      && (r.Ok? ==>
        && |r.value.accounts| == |accts|
        && Partition(parsed, r.value.working, r.value.newAssigned)
        && KeyedByAddress(r.value.working)
        && |p.newAssigned| <= |r.value.newAssigned|
        && r.value.newAssigned[..|p.newAssigned|] == p.newAssigned
        && Owners(r.value.newAssigned[|p.newAssigned|..]) == UnboundOwners(p.accounts)
        && BelowAll(r.value.newAssigned, |p.newAssigned|, r.value.working)
        && AscendingFrom(r.value.newAssigned, |p.newAssigned|))
  {
    var p := FirstPass(parsed, accts);
    FirstPassFacts(parsed, accts);
    SecondPassOutcome(p.working, p.newAssigned, p.accounts);
    SecondPassShape(parsed, p.working, p.newAssigned, p.accounts);
    SecondPassLeast(parsed, p.working, p.newAssigned, p.accounts);
    match SecondPass(p.working, p.newAssigned, p.accounts)
    case Err(e) => Err(e)
    case Ok((working, newAssigned)) => Ok(p.(working := working, newAssigned := newAssigned))
  }

  // ---------------------------------------------------------------------
  // init
  // ---------------------------------------------------------------------

  /** What start-up leaves behind: the accounts as held in memory, the
      records written (in write order) and the repository afterwards. */
  datatype InitResult = InitResult(accounts: seq<Account>, saved: seq<ErisAccount>, repo: seq<ErisAccount>)

  /** The records `init` writes, newly assigned ones first: each a parsed
      descriptor, no address twice, the free ones in ascending order. */
  lemma SavedOrder(parsed: map<string, ErisAccount>, sh: Shared)
    requires KeyedByAddress(parsed)
    requires Partition(parsed, sh.working, sh.newAssigned)
    ensures KeyedByAddress(sh.working)
    ensures var saved := sh.newAssigned + SortedValues(sh.working);
      && DistinctAddrs(saved)
      && (forall e :: e in saved ==> e.address in parsed && e == parsed[e.address].(owner := e.owner))
      && (forall i :: 0 <= i < |sh.newAssigned| ==> saved[i].owner.Some?)
      && (forall i :: |sh.newAssigned| <= i < |saved| ==> saved[i] == parsed[saved[i].address])
      && AscendingFrom(saved, |sh.newAssigned|)
  {
    SavedRest(parsed, sh);
    SavedCore(parsed, sh.working, sh.newAssigned, SortedValues(sh.working));
  }

  /** The remaining map's values are its own parsed descriptors. */
  lemma SavedRest(parsed: map<string, ErisAccount>, sh: Shared)
    requires KeyedByAddress(parsed)
    requires Partition(parsed, sh.working, sh.newAssigned)
    ensures KeyedByAddress(sh.working)
    ensures var rest := SortedValues(sh.working);
      && (forall j :: 0 <= j < |rest| ==> rest[j].address in sh.working && rest[j] == parsed[rest[j].address])
      && (forall i, j :: 0 <= i < j < |rest| ==> LexLe(rest[i].address, rest[j].address) && rest[i].address != rest[j].address)
  {
  }

  /** The saved list `na + rest`, for a newly assigned list `na` and any
      ascending listing `rest` of the remaining map's parsed descriptors. */
  lemma SavedCore(parsed: map<string, ErisAccount>, working: map<string, ErisAccount>,
                  na: seq<ErisAccount>, rest: seq<ErisAccount>)
    requires Partition(parsed, working, na)
    requires forall j :: 0 <= j < |rest| ==> rest[j].address in working && rest[j] == parsed[rest[j].address]
    requires forall i, j :: 0 <= i < j < |rest| ==> LexLe(rest[i].address, rest[j].address) && rest[i].address != rest[j].address
    ensures var saved := na + rest;
      && DistinctAddrs(saved)
      && (forall e :: e in saved ==> e.address in parsed && e == parsed[e.address].(owner := e.owner))
      && (forall i :: 0 <= i < |na| ==> saved[i].owner.Some?)
      && (forall i :: |na| <= i < |saved| ==> saved[i] == parsed[saved[i].address])
      && AscendingFrom(saved, |na|)
  {
    var saved := na + rest;
    var n := |na|;
    forall i | n <= i < |saved| ensures saved[i] == rest[i - n] && saved[i].address in working
      && saved[i] == parsed[saved[i].address] {
    }
    forall i | 0 <= i < n ensures saved[i] == na[i] && Drawn(parsed, working, saved[i]) {
    }
    forall i, j | 0 <= i < j < |saved| ensures saved[i].address != saved[j].address {
      if i < n && j >= n {
        assert saved[j].address in working;
      }
    }
    forall i, j | n <= i < j < |saved| ensures LexLe(saved[i].address, saved[j].address) {
      assert saved[i] == rest[i - n] && saved[j] == rest[j - n];
    }
  }

  /** `init`: parse, reconcile (stale records are deleted during the first
      pass), then save the newly assigned entries and after them the
      remaining ones in address order. Every saved record is a parsed
      descriptor and no address is written twice: first the ones now held by
      an account, then the free ones unchanged, in ascending address order. */
  function Init(entries: seq<ProvisionEntry>, accts: seq<Account>, repo: seq<ErisAccount>): (r: Result<InitResult, Exc>)
    ensures r.Err? ==> r.error == NullPointer
    ensures r.Ok? ==> DistinctAddrs(r.value.saved)
    ensures r.Ok? ==> forall e :: e in r.value.saved ==>
      e.address in Mapping(entries) && e == Mapping(entries)[e.address].(owner := e.owner)
    ensures r.Ok? ==> exists n :: (0 <= n <= |r.value.saved|
      && (forall i :: 0 <= i < n ==> r.value.saved[i].owner.Some?)
      && (forall i :: n <= i < |r.value.saved| ==> r.value.saved[i] == Mapping(entries)[r.value.saved[i].address])
      && AscendingFrom(r.value.saved, n))
    ensures var sh := ShareAccounts(Mapping(entries), accts);
      && (r.Ok? <==> sh.Ok?)
      && (r.Ok? ==> r.value.accounts == sh.value.accounts
                    && r.value.saved == sh.value.newAssigned + SortedValues(sh.value.working))
    ensures r.Ok? ==> forall e :: e in r.value.saved ==> e in r.value.repo
    ensures r.Ok? ==> var deleted := ShareAccounts(Mapping(entries), accts).value.deleted;
      && (forall x :: x in r.value.repo ==> x in r.value.saved || (x in repo && NoneAt(deleted, x.address)))
      && (forall x :: x in repo && NoneAt(deleted, x.address) && NoneAt(r.value.saved, x.address) ==> x in r.value.repo)
  {
    var parsed := Mapping(entries);
    match ShareAccounts(parsed, accts)
    case Err(e) => Err(e)
    case Ok(sh) =>
      SavedOrder(parsed, sh);
      var saved := sh.newAssigned + SortedValues(sh.working);
      var kept := DeleteAll(repo, sh.deleted);
      DeleteAllFacts(repo, sh.deleted);
      SaveAllFrom(kept, saved);
      SaveAllHolds(kept, saved);
      forall x | x in repo && NoneAt(sh.deleted, x.address) && NoneAt(saved, x.address)
        ensures x in SaveAll(kept, saved)
      {
        SaveAllKeeps(kept, saved, x);
      }
      Ok(InitResult(sh.accounts, saved, SaveAll(kept, saved)))
  }

  /** After start-up, an account whose address the provisioning file no
      longer lists is unbound, and the repository holds no record at that
      address. */
  lemma InitDropsStale(entries: seq<ProvisionEntry>, accts: seq<Account>, repo: seq<ErisAccount>, i: nat)
    requires i < |accts| && accts[i].erisAccount.Some?
    requires accts[i].erisAccount.value.address !in Mapping(entries)
    ensures var r := Init(entries, accts, repo);
      r.Ok? ==>
        && r.value.accounts[i] == accts[i].(erisAccount := None)
        && forall x :: x in r.value.repo ==> x.address != accts[i].erisAccount.value.address
  {
    var parsed := Mapping(entries);
    var b := accts[i].erisAccount.value;
    StaleBindingDropped(parsed, accts, i);
    var r := Init(entries, accts, repo);
    if r.Ok? {
      var sh := ShareAccounts(parsed, accts).value;
      var k :| 0 <= k < |sh.deleted| && sh.deleted[k] == b;
      forall x | x in r.value.repo ensures x.address != b.address {
        if x !in r.value.saved {
          assert NoneAt(sh.deleted, x.address);
          assert sh.deleted[k].address != x.address;
        }
      }
    }
  }
}

=== FILE: strings.dfy ===
/** The pieces of `java.lang.String` behaviour the core relies on:
    `split("\\s")`, `matches(".*X.*")`, `compareTo`, `equalsIgnoreCase`
    and `hashCode`. Java `char`s are UTF-16 code units; here a `char` is one
    Dafny character. */
module Strings {

  /** The regex class `\s`: space, tab, newline, vertical tab, form feed and
      carriage return. */
  predicate IsWhitespace(c: char) {
    c == ' ' || c == '\t' || c == '\n' || c == '\r' || c as int == 0x0B || c as int == 0x0C
  }

  /** The characters the regex `.` does not match without the DOTALL flag. */
  predicate IsLineTerminator(c: char) {
    c == '\n' || c == '\r' || c as int == 0x85 || c as int == 0x2028 || c as int == 0x2029
  }

  // ---------------------------------------------------------------------
  // split("\\s")
  // ---------------------------------------------------------------------

  /** Index of the first whitespace character, or `|s|` when there is none. */
  function FirstWs(s: string): (i: nat)
    ensures i <= |s|
    ensures forall j :: 0 <= j < i ==> !IsWhitespace(s[j])
    ensures i < |s| ==> IsWhitespace(s[i])
  {
    if s == [] then 0
    else if IsWhitespace(s[0]) then 0
    else 1 + FirstWs(s[1..])
  }

  /** Every piece between whitespace characters, empty pieces included:
      `n` separators give `n + 1` pieces. */
  function SplitAll(s: string): (parts: seq<string>)
    ensures |parts| >= 1
    ensures forall k :: 0 <= k < |parts| ==> |parts[k]| <= |s|
    decreases |s|
  {
    var i := FirstWs(s);
    if i == |s| then [s] else [s[..i]] + SplitAll(s[i + 1..])
  }

  /** `String.split` discards the empty pieces at the end of the result. */
  function DropTrailingEmpty(parts: seq<string>): (r: seq<string>)
    ensures |r| <= |parts| && r == parts[..|r|]
    ensures forall k :: |r| <= k < |parts| ==> parts[k] == ""
    ensures r == [] || r[|r| - 1] != ""
  {
    if parts == [] then []
    else if parts[|parts| - 1] == "" then DropTrailingEmpty(parts[..|parts| - 1])
    else parts
  }

  /** `s.split("\\s")`: with no separator at all the result is `[s]` (so
      `"".split` is `[""]`); otherwise the pieces, leading empty ones kept and
      trailing empty ones dropped. */
  function JavaSplit(s: string): seq<string> {
    if FirstWs(s) == |s| then [s] else DropTrailingEmpty(SplitAll(s))
  }

  /** The first two pieces of `SplitAll` are the text before the first
      separator and the text between the first and the second. */
  lemma SplitAllHead(s: string)
    ensures SplitAll(s)[0] == s[..FirstWs(s)]
    ensures FirstWs(s) < |s| ==>
      |SplitAll(s)| >= 2 &&
      SplitAll(s)[1] == s[FirstWs(s) + 1..][..FirstWs(s[FirstWs(s) + 1..])]
  {
    var i := FirstWs(s);
    if i < |s| {
      var rest := s[i + 1..];
      assert SplitAll(s) == [s[..i]] + SplitAll(rest);
      if FirstWs(rest) == |rest| {
        assert rest[..FirstWs(rest)] == rest;
      }
    }
  }

  // ---------------------------------------------------------------------
  // matches(".*X.*")
  // ---------------------------------------------------------------------

  /** `t` occurs somewhere in `s`. */
  predicate HasInfix(s: string, t: string)
    decreases |s|
  {
    t <= s || (s != [] && HasInfix(s[1..], t))
  }

  /** `t` occurs in `s` starting at index `i`. */
  predicate OccursAt(s: string, t: string, i: int) {
    0 <= i && i + |t| <= |s| && s[i..i + |t|] == t
  }

  /** An occurrence found by `HasInfix` is a real one, and every real one is
      found. */
  lemma {:induction false} HasInfixIsOccurrence(s: string, t: string)
    ensures HasInfix(s, t) <==> exists i :: OccursAt(s, t, i)
    decreases |s|
  {
    if t <= s {
      assert OccursAt(s, t, 0);
    } else if s == [] {
    } else {
      HasInfixIsOccurrence(s[1..], t);
      if HasInfix(s[1..], t) {
        var i :| OccursAt(s[1..], t, i);
        assert s[i + 1..i + 1 + |t|] == s[1..][i..i + |t|];
        assert OccursAt(s, t, i + 1);
      }
      if exists i :: OccursAt(s, t, i) {
        var i :| OccursAt(s, t, i);
        if i > 0 {
          assert s[1..][i - 1..i - 1 + |t|] == s[i..i + |t|];
          assert OccursAt(s[1..], t, i - 1);
        }
      }
    }
  }

  /** `s.matches(".*" + infix + ".*")`: the whole of `s` must match, and `.`
      matches anything but a line terminator. */
  predicate MatchesAround(s: string, infix: string) {
    HasInfix(s, infix) && forall i :: 0 <= i < |s| ==> !IsLineTerminator(s[i])
  }

  // ---------------------------------------------------------------------
  // compareTo: the order of a TreeMap<String, _>
  // ---------------------------------------------------------------------

  /** `a.compareTo(b) <= 0`: lexicographic, a proper prefix first. */
  predicate LexLe(a: string, b: string)
    decreases |a|
  {
    a == [] || (b != [] && (a[0] < b[0] || (a[0] == b[0] && LexLe(a[1..], b[1..]))))
  }

  lemma {:induction false} LexLeReflexive(a: string)
    ensures LexLe(a, a)
    decreases |a|
  {
    if a != [] {
      LexLeReflexive(a[1..]);
    }
  }

  lemma {:induction false} LexLeTotal(a: string, b: string)
    ensures LexLe(a, b) || LexLe(b, a)
    decreases |a|
  {
    if a != [] && b != [] && a[0] == b[0] {
      LexLeTotal(a[1..], b[1..]);
    }
  }

  lemma {:induction false} LexLeAntisymmetric(a: string, b: string)
    requires LexLe(a, b) && LexLe(b, a)
    ensures a == b
    decreases |a|
  {
    if a != [] {
      LexLeAntisymmetric(a[1..], b[1..]);
      assert a == [a[0]] + a[1..];
      assert b == [b[0]] + b[1..];
    }
  }

  lemma {:induction false} LexLeTransitive(a: string, b: string, c: string)
    requires LexLe(a, b) && LexLe(b, c)
    ensures LexLe(a, c)
    decreases |a|
  {
    if a != [] && a[0] == b[0] && b[0] == c[0] {
      LexLeTransitive(a[1..], b[1..], c[1..]);
    }
  }

  // ---------------------------------------------------------------------
  // equalsIgnoreCase and hashCode
  // ---------------------------------------------------------------------

  function ToLowerAscii(c: char): char {
    if 'A' <= c <= 'Z' then (c as int + 32) as char else c
  }

  /** `a.equalsIgnoreCase(b)`, with case folding limited to ASCII letters. */
  predicate EqualsIgnoreCase(a: string, b: string) {
    |a| == |b| && forall i :: 0 <= i < |a| ==> ToLowerAscii(a[i]) == ToLowerAscii(b[i])
  }

  /** A Java `int`: the value reduced modulo 2^32 into [-2^31, 2^31). */
  function ToInt32(x: int): (r: int)
    ensures -0x8000_0000 <= r < 0x8000_0000
    ensures (r - x) % 0x1_0000_0000 == 0
  {
    var m := x % 0x1_0000_0000;
    if m >= 0x8000_0000 then m - 0x1_0000_0000 else m
  }

  /** `ToInt32` of a value whose quotient by 2^32 is known. */
  lemma ToInt32Window(x: int, q: int)
    requires q * 0x1_0000_0000 <= x < q * 0x1_0000_0000 + 0x1_0000_0000
    ensures var m := x - q * 0x1_0000_0000;
      ToInt32(x) == if m >= 0x8000_0000 then m - 0x1_0000_0000 else m
  {
  }

  /** `String.hashCode()`: `h = 31 * h + c` over the characters, in `int`
      arithmetic. */
  function JavaHash(s: string): (h: int)
    ensures -0x8000_0000 <= h < 0x8000_0000
  {
    if s == [] then 0 else ToInt32(31 * JavaHash(s[..|s| - 1]) + s[|s| - 1] as int)
  }

  /** One step of `hashCode`: the hash of a string extended by one
      character. */
  lemma JavaHashStep(s: string, c: char)
    ensures JavaHash(s + [c]) == ToInt32(31 * JavaHash(s) + c as int)
  {
  }

  /** The hash of the first six characters of "polygenelubricants". */
  lemma HashPrefix6()
    ensures JavaHash("polyge") == -982654550
  {
    JavaHashStep("", 'p');
    assert "" + ['p'] == "p";
    ToInt32Window(112, 0);
    JavaHashStep("p", 'o');
    assert "p" + ['o'] == "po";
    ToInt32Window(3583, 0);
    JavaHashStep("po", 'l');
    assert "po" + ['l'] == "pol";
    ToInt32Window(111181, 0);
    JavaHashStep("pol", 'y');
    assert "pol" + ['y'] == "poly";
    ToInt32Window(3446732, 0);
    JavaHashStep("poly", 'g');
    assert "poly" + ['g'] == "polyg";
    ToInt32Window(106848795, 0);
    JavaHashStep("polyg", 'e');
    assert "polyg" + ['e'] == "polyge";
    ToInt32Window(3312312746, 0);
  }

  /** The hash of its first twelve characters. */
  lemma HashPrefix12()
    ensures JavaHash("polygenelubr") == 2082189306
  {
    HashPrefix6();
    JavaHashStep("polyge", 'n');
    assert "polyge" + ['n'] == "polygen";
    ToInt32Window(-30462290940, -8);
    JavaHashStep("polygen", 'e');
    assert "polygen" + ['e'] == "polygene";
    ToInt32Window(-12323115807, -3);
    JavaHashStep("polygene", 'l');
    assert "polygene" + ['l'] == "polygenel";
    ToInt32Window(17415368619, 4);
    JavaHashStep("polygenel", 'u');
    assert "polygenel" + ['u'] == "polygenelu";
    ToInt32Window(7300482602, 1);
    JavaHashStep("polygenelu", 'b');
    assert "polygenelu" + ['b'] == "polygenelub";
    ToInt32Window(-39973011592, -10);
    JavaHashStep("polygenelub", 'r');
    assert "polygenelub" + ['r'] == "polygenelubr";
    ToInt32Window(-40867483654, -10);
  }

  /** The hash of all eighteen: the least `int`. */
  lemma HashPrefix18()
    ensures JavaHash("polygenelubricants") == -2147483648
  {
    HashPrefix12();
    JavaHashStep("polygenelubr", 'i');
    assert "polygenelubr" + ['i'] == "polygenelubri";
    ToInt32Window(64547868591, 15);
    JavaHashStep("polygenelubri", 'c');
    assert "polygenelubri" + ['c'] == "polygenelubric";
    ToInt32Window(3824133780, 0);
    JavaHashStep("polygenelubric", 'a');
    assert "polygenelubric" + ['a'] == "polygenelubrica";
    ToInt32Window(-14595838899, -4);
    JavaHashStep("polygenelubrica", 'n');
    assert "polygenelubrica" + ['n'] == "polygenelubrican";
    ToInt32Window(-53039047231, -13);
    JavaHashStep("polygenelubrican", 't');
    assert "polygenelubrican" + ['t'] == "polygenelubricant";
    ToInt32Window(-46482629933, -11);
    JavaHashStep("polygenelubricant", 's');
    assert "polygenelubricant" + ['s'] == "polygenelubricants";
    ToInt32Window(23622320128, 5);
  }

  /** Values `String.hashCode()` gives in Java: "" hashes to 0, "ab" to
      97 * 31 + 98, and "polygenelubricants" wraps around to the least
      `int`. */
  lemma JavaHashExamples()
    ensures JavaHash("") == 0
    ensures JavaHash("ab") == 3105
    ensures JavaHash("polygenelubricants") == -0x8000_0000
  {
    JavaHashStep("", 'a');
    JavaHashStep("a", 'b');
    assert "" + ['a'] == "a" && "a" + ['b'] == "ab";
    HashPrefix18();
  }
}

=== FILE: wrappers.dfy ===
/** Option and Result: the Java code's nullable references and thrown
    exceptions, written as values. */
module Wrappers {

  /** A nullable Java reference: `None` stands for `null`. */
  datatype Option<+T> = None | Some(value: T) {

    /** The value, or `default` for `null` (`Optional.orElse`). */
    function GetOr(default: T): T {
      match this
      case Some(v) => v
      case None => default
    }
  }

  /** The outcome of a Java call: a returned value or a thrown exception. */
  datatype Result<+T, +E> = Ok(value: T) | Err(error: E) {

    predicate IsFailure() {
      Err?
    }

    function PropagateFailure<U>(): Result<U, E>
      requires Err?
    {
      Err(error)
    }

    function Extract(): T
      requires Ok?
    {
      value
    }
  }
}
